=== FILE: README.md ===
# Field-specification emitters of the Laravel CRUD scaffolding commands

This project models the text-producing core of two Artisan commands, `make:crud` (`SmartScaffoldCommand`) and `auto:generate` (`GenerateCrudCommand`). Both commands read a field specification such as `author_id:foreign:users:id:cascade,price:decimal:default(0.00)`. They split it on `,` into clauses and split each clause on `:` into parts. From the parts they build pieces of generated PHP:

- migration schema lines
- validation rules and messages for the Store and Update form requests
- factory entries
- API-resource fields
- controller field mappings
- query-filter methods
- a patch of the route file that registers the resource route

Everything is modelled as pure functions over `seq<char>`, in these modules:

- `Strings`: the PHP primitives the commands use. These are `explode`, `implode`, `trim`, `Str::contains`, and `preg_replace` with a literal pattern.
- `FieldSpec`: clause and part splitting, the `$parts[i] ?? default` lookup, and the set of reserved names. It also holds `Kept`, the reference list of clauses that the skipping emitters emit.
- `Blueprint`: a migration line as a list of builder calls, rendered to text in one place. This module also holds the modifier-token mapping and the `onDelete` policy, which both commands share.
- `SmartScaffold`, `SmartScaffoldRequests`, `SmartScaffoldFactory`, `SmartScaffoldResource`, `SmartScaffoldFilters`: the emitters of `SmartScaffoldCommand`.
- `GenerateCrud`: the migration body of `GenerateCrudCommand`. There, `foreign` is a modifier that replaces the column built so far.
- `Routes`: `addApiResourceRoute`. Both commands use the same code for it, at `src/Commands/SmartScaffoldCommand.php:152-174` and `src/Commands/GenerateCrudCommand.php:143-165`.

The framework's `Str::` inflection helpers (`plural`, `singular`, `kebab`, `camel`, `studly`) are not modelled. They are passed in as the fields of an `Inflector` value, and nothing proved here depends on what they do.

`Str::contains` is modelled as a plain substring test. Laravel's version returns false for an empty needle, but the needles used here (the `use` line and the route line) are never empty.

The regular expression `^default\((.*)\)$` is applied to a trimmed token. It matches exactly when the token starts with `default(`, ends with `)`, and has no line feed between them. This is because `.` does not match a line feed, and on a trimmed token `$` can only match at the very end.

Where the documented behaviour of these commands and the code disagree, the model follows the code:

- **Modifier order.** Modifier clauses follow the order in which the tokens were written. They are not put in a fixed `nullable`, `default`, `unique`, `index` order (`Blueprint.ModifierCallsAppend`).
- **Repeated `default(...)`.** Every `default(...)` token appends its own `->default(...)` clause, so nothing is resolved as "last wins" when the text is built.
- **`created_at` in the factory.** `created_at` always appears once in the factory, as the appended `now()` timestamp, even if the specification declares it (`SmartScaffoldFactory.CreatedAtOnce`).
- **Route patch.** The route patch is not idempotent on every route file; see Findings.

## Model

Helpers without a row of their own are stated through the rows of their callers. `Strings.ReplaceAll` is stated by `Strings.ReplaceAllUndo`, `Strings.ReplaceAllCopiesPrefix` and the rows of `Routes`. `Strings.Join` is stated by `Blueprint.BodyText` and the two `SchemaText` rows. `GenerateCrud.CallsAfter` and `GenerateCrud.ColumnCalls` are stated by `GenerateCrud.CallsAfterForeignToken`, `GenerateCrud.CallsAfterLastForeign` and the other `GenerateCrud` rows on the chain of calls. `SmartScaffoldFactory.FactoryFieldDefinition` is stated by `SmartScaffoldFactory.ClauseEntry` and `SmartScaffoldFactory.FactoryLines`. In `SmartScaffoldFilters`, each kind's `Plan` records the range variable, the prelude, and the builder call of the closing `return`. `MethodBody` renders that plan and `FilterQuery` runs it, so `FilterQuery`, `IntegerAgeFilter` and `QueryMatchesBody` are statements about the emitted text. The literal texts of `PlanOf`, `RangeBlock`, `ReturnLine`, `OperandText` and the `RenderFilterMethod` frame follow `src/Commands/SmartScaffoldCommand.php:478-512` and are checked by reading, not by a lemma. `SmartScaffoldResource.ResourceLine` is stated by `SmartScaffoldResource.ResourceFields`.

| member | source | states |
|---|---|---|
| Strings.Trim | src/Commands/SmartScaffoldCommand.php:185 | the result has no trim character (space, tab, LF, CR, NUL, VT) at either end; an already trimmed string comes back unchanged |
| Strings.TrimSlice | src/Commands/SmartScaffoldCommand.php:185 | the result of `trim` is a slice `s[i..j]` of its argument with only trim characters before `i` and after `j`; with the result having no trim character at either end, this is exactly the stripping of both edges |
| Strings.TrimIdempotent | src/Commands/SmartScaffoldCommand.php:89 | trimming a trimmed part changes nothing |
| Strings.Split | src/Commands/SmartScaffoldCommand.php:85 | `explode` always yields at least one piece, so part 0 of a clause always exists |
| Strings.SplitPieces | src/Commands/SmartScaffoldCommand.php:85 | `explode` yields one more piece than the string has separators, and no piece holds a separator |
| Strings.JoinSplit | src/Commands/SmartScaffoldCommand.php:491 | `implode` with the separator undoes `explode`: the pieces joined back give the original string |
| Strings.SplitJoin | src/Commands/SmartScaffoldCommand.php:85 | `explode` undoes `implode` when no piece holds the separator |
| Strings.JoinFrame | src/Commands/SmartScaffoldCommand.php:150 | the `implode` of two or more lines starts with the first line and a separator, and ends with the last two lines around a separator |
| Strings.ReplaceAllLength | src/Commands/SmartScaffoldCommand.php:165 | each replaced occurrence changes the length by the replacement's length minus the pattern's length, and nothing else changes it |
| Strings.OccurrencesPositive | src/Commands/SmartScaffoldCommand.php:165 | the replacement scan finds an occurrence exactly when the pattern occurs in the text |
| Strings.ReplaceAllAbsent | src/Commands/SmartScaffoldCommand.php:165 | `preg_replace` leaves a text without the pattern unchanged |
| Strings.ReplaceAllPresent | src/Commands/SmartScaffoldCommand.php:165 | when the pattern occurs, the replacement text appears in the result |
| Strings.ReplaceAllKeepsContains | src/Commands/SmartScaffoldCommand.php:165 | a substring that no occurrence of the pattern can overlap survives the replacement |
| Strings.ReplaceAllUndo | src/Commands/SmartScaffoldCommand.php:165 | when the replacement starts with the pattern and its first character does not recur in it, replacing the replacement back by the pattern gives the input back: the replacement loses none of the text |
| Strings.ReplaceAllCopiesPrefix | src/Commands/SmartScaffoldCommand.php:165 | a prefix of the replaced text that holds no copy of the replacement's first character was copied unchanged from the input |
| FieldSpec.TrimAll | src/Commands/SmartScaffoldCommand.php:89 | `array_map('trim', ...)` keeps the number of parts and trims each one |
| FieldSpec.Kept | src/Commands/SmartScaffoldCommand.php:183-191 | the clauses a skipping emitter keeps are at most the clauses of the specification; which ones is stated by `KeptMembers` |
| FieldSpec.EmitKept | src/Commands/SmartScaffoldCommand.php:183-202 | a skipping emitter yields exactly one item per kept clause, in specification order |
| FieldSpec.KeptNotReserved | src/Commands/SmartScaffoldCommand.php:189-191 | no kept clause has a reserved name (`id`, `created_at`, `updated_at`, `deleted_at`) |
| FieldSpec.KeptMembers | src/Commands/SmartScaffoldCommand.php:189-191 | a clause is kept if and only if it is in the specification and its trimmed name is not reserved |
| FieldSpec.KeptAppend | src/Commands/SmartScaffoldCommand.php:183-202 | keeping commutes with concatenation, so kept clauses keep their relative order |
| FieldSpec.KeptDropsReserved | src/Commands/SmartScaffoldCommand.php:188-191 | a specification with a reserved clause keeps strictly fewer clauses than it has |
| Blueprint.Render | src/Commands/SmartScaffoldCommand.php:144 | every rendered statement starts with `$table` and ends with `;` |
| Blueprint.QuoteAll | src/Commands/SmartScaffoldCommand.php:105-109 | every argument is wrapped in single quotes, one quoted argument per argument, in order |
| Blueprint.Body | src/Commands/SmartScaffoldCommand.php:86-148 | the body is `id()`, then the column statements unchanged and in order, then `timestamps()` and `softDeletes()` |
| Blueprint.BodyText | src/Commands/SmartScaffoldCommand.php:147-150 | the joined body text starts with `$table->id();` and ends with `$table->timestamps();`, the separator, and `$table->softDeletes();`, whatever the columns |
| Blueprint.FrameText | src/Commands/SmartScaffoldCommand.php:86 | the three fixed statements render as `$table->id();`, `$table->timestamps();` and `$table->softDeletes();` |
| Blueprint.RenderBare | src/Commands/SmartScaffoldCommand.php:147-148 | a call without arguments renders as `$table->op();` |
| Blueprint.RenderColumn | src/Commands/SmartScaffoldCommand.php:122 | a one-column statement renders as `$table->{type}('{name}');` |
| Blueprint.RenderPair | src/Commands/GenerateCrudCommand.php:123 | a two-argument call renders as `->op('a', 'b')`, the quoted arguments separated by a comma and a space |
| Blueprint.RenderStartsWithFirstCall | src/Commands/SmartScaffoldCommand.php:122 | the column call is the text right after `$table` |
| Blueprint.RenderSplit | src/Commands/SmartScaffoldCommand.php:122-144 | for any split of a chain, the calls in front are rendered before the calls behind, so the chained modifier clauses come after the column call in the order they were added |
| Blueprint.RenderCallsAppend | src/Commands/SmartScaffoldCommand.php:124-144 | the text of a concatenated chain is the concatenation of the texts, as each `.=` appends its call |
| Blueprint.ModifierCall | src/Commands/SmartScaffoldCommand.php:124-141 | a token yields a clause exactly when it is `nullable`, `unique`, `index` or a `default(...)` match; the flag tokens yield the argument-less call of the same name |
| Blueprint.ModifierCalls | src/Commands/SmartScaffoldCommand.php:124-142 | the modifier tokens add at most one clause each, and every clause is a modifier method |
| Blueprint.DefaultPayloadVerbatim | src/Commands/SmartScaffoldCommand.php:130-131 | `default(v)` yields `default` with payload `v` copied verbatim, if and only if `v` has no line feed; otherwise the token adds nothing |
| Blueprint.ModifierCallsAppend | src/Commands/SmartScaffoldCommand.php:124-142 | the clauses follow the order of the tokens: the clauses of a concatenation are the concatenated clauses |
| Blueprint.UnknownTokenAddsNothing | src/Commands/SmartScaffoldCommand.php:124-141 | an unrecognised token can be removed from anywhere in the list without changing the clauses |
| Blueprint.FlagClausePresent | src/Commands/SmartScaffoldCommand.php:126-140 | `nullable()`, `unique()` or `index()` is chained if and only if that token is among the modifiers |
| Blueprint.OnDeleteCalls | src/Commands/SmartScaffoldCommand.php:111-115 | `onDelete('cascade')` if and only if `cascade` is listed; `onDelete('set null')` if and only if `setNull` is listed and `cascade` is not; at most one |
| SmartScaffold.SchemaParts | src/Commands/SmartScaffoldCommand.php:89 | a clause read with all parts trimmed always has a part 0 |
| SmartScaffold.ClauseStatements | src/Commands/SmartScaffoldCommand.php:88-145 | a clause contributes no statement if named `id`, two if its type is `foreign`, and one otherwise |
| SmartScaffold.FieldStatements | src/Commands/SmartScaffoldCommand.php:88-145 | the statement count is the sum of the clause weights, and the first clause's statements come first |
| SmartScaffold.SchemaStatements | src/Commands/SmartScaffoldCommand.php:83-151 | the body opens with `id()`, closes with `timestamps()` then `softDeletes()`, and between them holds exactly the statements of the clauses, in order |
| SmartScaffold.SchemaText | src/Commands/SmartScaffoldCommand.php:86-150 | the generated schema text starts with `$table->id();` and ends with `$table->timestamps();` and `$table->softDeletes();` |
| SmartScaffold.SkipsOnlyId | src/Commands/SmartScaffoldCommand.php:93-96 | a clause is dropped if and only if its trimmed name is exactly `id`, so `created_at` and the other reserved names still get columns |
| SmartScaffold.FieldStatementsAppend | src/Commands/SmartScaffoldCommand.php:88-145 | the statements follow the clause order |
| SmartScaffold.FieldStatementsAt | src/Commands/SmartScaffoldCommand.php:88-145 | every clause's own statements stand in the body, right after the statements of the clauses before it |
| SmartScaffold.ForeignClause | src/Commands/SmartScaffoldCommand.php:101-118 | a foreign key gives `unsignedBigInteger(name)`, then `foreign(name)->references(col)->on(table)` (parts 3 and 2, defaults `id` and `users`) followed by exactly the deletion policy: `onDelete('cascade')` if `cascade` is listed, else `onDelete('set null')` if `setNull` is, else nothing; never a nullable, default, unique or index clause |
| SmartScaffold.ForeignStatementsShape | src/Commands/SmartScaffoldCommand.php:105-117 | for any name, table, column and modifiers, the constraint is `foreign`, `references`, `on` followed by exactly the deletion policy, and no statement holds a modifier clause |
| SmartScaffold.PlainClause | src/Commands/SmartScaffoldCommand.php:122-144 | any other type gives one statement: the type verbatim as the builder method on the name, followed by the clauses of the recognised modifiers in order |
| SmartScaffold.FieldMappings | src/Commands/SmartScaffoldCommand.php:358-370 | one mapping `'name' => $request->input('name')` per clause, reserved names included, in order |
| SmartScaffold.MappingsKeepReserved | src/Commands/SmartScaffoldCommand.php:358-370 | a reserved clause still gets its mapping, so a specification naming a reserved field maps more fields than the skipping emitters keep |
| SmartScaffoldRequests.TypeRules | src/Commands/SmartScaffoldCommand.php:307-316 | the tail after `required` has one or two rules; it is `string, max:255` exactly for the types outside the table, and `string` for `text` and `longText` |
| SmartScaffoldRequests.ValidationRules | src/Commands/SmartScaffoldCommand.php:297-317 | the rules start with `required`; a foreign key with a reference yields exactly `[required, exists:T,C]`; any other type yields `required` followed by its table tail |
| SmartScaffoldRequests.RequestEntries | src/Commands/SmartScaffoldCommand.php:257-283 | one entry per kept clause, in order, each holding that clause's name and rules |
| SmartScaffoldRequests.EntryMessages | src/Commands/SmartScaffoldCommand.php:280-282 | one message per rule, in rule order |
| SmartScaffoldRequests.RuleLines | src/Commands/SmartScaffoldCommand.php:278 | one rule line per entry, in order |
| SmartScaffoldRequests.MessageLines | src/Commands/SmartScaffoldCommand.php:257-283 | the message list has exactly as many messages as there are rules over all entries, and starts with the messages of the first entry |
| SmartScaffoldRequests.MessageLinesAppend | src/Commands/SmartScaffoldCommand.php:257-283 | the messages are the per-field messages concatenated in field order |
| SmartScaffoldRequests.GenerateRequestFile | src/Commands/SmartScaffoldCommand.php:251-295 | the rule lines are the rule lines of the request entries and the messages are their messages, so there is one rule line per kept clause and one message per rule; the file is `Http/Requests/{Kind}{Model}Request.php`, the stub is `store-request.stub` or `update-request.stub`, and `{{ model }}` gets the model name |
| SmartScaffoldRequests.GenerateRequestFiles | src/Commands/SmartScaffoldCommand.php:232-249 | the Store and Update requests get the same model, rules and messages, and go to different files from different stubs |
| SmartScaffoldRequests.EntryRules | src/Commands/SmartScaffoldCommand.php:262-276 | every rule list starts with `required`; a foreign key's list is exactly `[required, exists:T,C]`, with T and C the trimmed parts 2 and 3 (defaults `users`, `id`) |
| SmartScaffoldRequests.NoReservedEntry | src/Commands/SmartScaffoldCommand.php:268-270 | no request entry has a reserved name |
| SmartScaffoldFactory.FakeFor | src/Commands/SmartScaffoldCommand.php:219-230 | a type outside the generator table, and only such a type, gets `faker->word` |
| SmartScaffoldFactory.ClauseEntry | src/Commands/SmartScaffoldCommand.php:183-201 | an entry carries the clause's trimmed name; a `foreign` type refers to `Studly(singular(table))::factory()` with the table trimmed from part 2 (default `users`); any other type gets the generator the fixed table gives its trimmed type; never `now()` |
| SmartScaffoldFactory.FieldEntries | src/Commands/SmartScaffoldCommand.php:183-202 | one entry per kept clause, in specification order |
| SmartScaffoldFactory.FieldEntriesNotReserved | src/Commands/SmartScaffoldCommand.php:189-191 | no field entry has a reserved name or a `now()` value |
| SmartScaffoldFactory.FactoryEntries | src/Commands/SmartScaffoldCommand.php:183-206 | the entries are exactly the field entries, followed by `created_at` and `updated_at`, both `now()` |
| SmartScaffoldFactory.AppendTimestamps | src/Commands/SmartScaffoldCommand.php:204-206 | the two timestamps are appended after the field entries, which stay unchanged in front |
| SmartScaffoldFactory.FactoryLines | src/Commands/SmartScaffoldCommand.php:183-211 | one line per factory entry, each the rendering `'name' => expression,` of that entry, ending with `'created_at' => now(),` and `'updated_at' => now(),` |
| SmartScaffoldFactory.CreatedAtOnce | src/Commands/SmartScaffoldCommand.php:189-206 | `created_at` is named exactly once, by the appended timestamp, however the specification declares it |
| SmartScaffoldFactory.ForeignEntry | src/Commands/SmartScaffoldCommand.php:194-197 | a foreign key refers to `Studly(singular(table))::factory()`, with the table trimmed from part 2 (default `users`) |
| SmartScaffoldFactory.TextAndDefault | src/Commands/SmartScaffoldCommand.php:226-228 | `text` yields `faker->text` and `string` yields the default `faker->word` |
| SmartScaffoldResource.FieldNames | src/Commands/SmartScaffoldCommand.php:389-397 | one name per kept clause, in order |
| SmartScaffoldResource.ResourceNames | src/Commands/SmartScaffoldCommand.php:386-397 | `id` first, then the kept field names |
| SmartScaffoldResource.ResourceFields | src/Commands/SmartScaffoldCommand.php:384-397 | one `'name' => $this->name,` line per exposed name, in order |
| SmartScaffoldResource.IdOnlyFirst | src/Commands/SmartScaffoldCommand.php:386-396 | `id` appears exactly once, in first place, whether or not the specification names it |
| SmartScaffoldFilters.FilterKindOf | src/Commands/SmartScaffoldCommand.php:481-510 | LIKE if and only if `string` or `text`; range if and only if `integer`, `bigInteger`, `float` or `decimal`; date range if and only if `date` or `datetime`; boolean if and only if `boolean` |
| SmartScaffoldFilters.GenerateFilterMethod | src/Commands/SmartScaffoldCommand.php:474-515 | the method is named `camel(fieldName)`, filters on that field, and its body is the one the `switch` picks for the type as passed |
| SmartScaffoldFilters.MethodBody | src/Commands/SmartScaffoldCommand.php:481-510 | every emitted body ends with the `return $this->builder->op('column', operand);` line of its kind's plan |
| SmartScaffoldFilters.FilterMethods | src/Commands/SmartScaffoldCommand.php:454-461 | one method per kept clause, in order, built from the trimmed name and the raw type |
| SmartScaffoldFilters.NoReservedFilter | src/Commands/SmartScaffoldCommand.php:458 | no method filters a reserved column |
| SmartScaffoldFilters.PaddedTypeIsExact | src/Commands/SmartScaffoldCommand.php:459 | a type written with surrounding whitespace always falls through to equality, because the type is not trimmed |
| SmartScaffoldFilters.DoubleAndDateTimeAreExact | src/Commands/SmartScaffoldCommand.php:481-510 | `double` and camel-case `dateTime` fall through to equality |
| SmartScaffoldFilters.FilterQuery | src/Commands/SmartScaffoldCommand.php:481-510 | the query the emitted method builds: with a comma a numeric or date filter is `whereBetween` over the comma-separated pieces; otherwise numeric and unrecognised types call `where` with the value, dates `whereDate`, text and string `where` with `LIKE` and the value wrapped in `%`, boolean `where` with the boolean |
| SmartScaffoldFilters.QueryMatchesBody | src/Commands/SmartScaffoldCommand.php:481-512 | when no range applies, the call the query makes is the `return` line the emitted method body ends with |
| SmartScaffoldFilters.RangeBounds | src/Commands/SmartScaffoldCommand.php:490-492 | a range gets at least two bounds, and joining them with commas gives back the request value |
| SmartScaffoldFilters.IntegerAgeFilter | src/Commands/SmartScaffoldCommand.php:486-494 | on an integer column, `18,30` is the range from 18 to 30 and `18` is an equality |
| Routes.InsertUse | src/Commands/SmartScaffoldCommand.php:163-166 | a file that already has the `use` line is unchanged; otherwise every `<?php` line opener, left to right, is followed by a blank line and the `use` line, and nothing else changes; the `use` line is then present if there was a line opener, and a file without one is unchanged |
| Routes.InsertUseUndo | src/Commands/SmartScaffoldCommand.php:163-166 | inserting the `use` line loses nothing: turning every inserted block back into a bare line opener gives the old contents, for a `use` line without `<` |
| Routes.UseLineIsLiteral | src/Commands/SmartScaffoldCommand.php:158-165 | for a controller name that starts with no digit and holds no backslash or dollar sign, the replacement text has no back-reference or escape, so `preg_replace` inserts it as written |
| Routes.AppendRoute | src/Commands/SmartScaffoldCommand.php:168-171 | the result holds the route line; a file that already had it is unchanged, any other file gets a line feed, the route line and a line feed appended |
| Routes.Patch | src/Commands/SmartScaffoldCommand.php:163-171 | the result is the file after the `use` insertion, with a line feed, the route line and a line feed appended exactly when that file lacks the route line; the route line is always present afterwards, the `use` line whenever the file had a line opener, and the file is kept as a prefix when no insertion happens |
| Routes.AddApiResourceRoute | src/Commands/SmartScaffoldCommand.php:152-174 | the patched file is the contents after the `use` insertion, with `Route::apiResource('{kebab(plural)}', {Model}Controller::class);` appended on its own line exactly when they lack it; the route line is always present, the controller's `use` line whenever there was a line opener, and the old contents stay a prefix when no insertion happens |
| Routes.PatchIdempotentIff | src/Commands/SmartScaffoldCommand.php:163-171 | a second run changes the file if and only if, after the first run, the `use` line is missing but a line opener is present |
| Routes.PatchIdempotentWithOpenTag | src/Commands/SmartScaffoldCommand.php:163-171 | a file with a `<?php` line opener or the `use` line already in it reaches its fixed point in one run |
| Routes.PatchNotIdempotentOnBareTag | src/Commands/SmartScaffoldCommand.php:165-170 | a file holding just `<?php` is changed again by a second run |
| Routes.BareTagOnce | src/Commands/SmartScaffoldCommand.php:163-171 | on `<?php` the first run only appends the route line |
| Routes.RouteDefinitionHasNoBackslash | src/Commands/SmartScaffoldCommand.php:159 | the route line has no backslash when the route and controller names have none |
| Routes.PatchRouteFirst | src/Commands/SmartScaffoldCommand.php:163-171 | the corrected patch is the `use` insertion applied to the file with the route line appended when it was missing; it always leaves the route line, and the `use` line whenever a line opener is present |
| Routes.InsertUseKeepsRoute | src/Commands/SmartScaffoldCommand.php:163-171 | inserting the `use` line keeps a route line that no line opener can overlap |
| Routes.PatchRouteFirstIdempotent | src/Commands/SmartScaffoldCommand.php:163-171 | the corrected patch is idempotent |
| Routes.RouteDefinitionFitsRouteFirst | src/Commands/SmartScaffoldCommand.php:159 | for names without `<`, the route line meets the corrected patch's requirements |
| GenerateCrud.ParseClause | src/Commands/GenerateCrudCommand.php:91-93 | the name is trimmed part 0 and the type is trimmed part 1 (default `string`), read as the other emitters read them |
| GenerateCrud.Tokens | src/Commands/GenerateCrudCommand.php:96-100 | one token per raw modifier, each the raw modifier trimmed |
| GenerateCrud.ForeignCalls | src/Commands/GenerateCrudCommand.php:120-131 | `foreignId(name)`, then `constrained(table, column)` with the trimmed parts 3 and 4 (defaults `users` and `id`), then exactly the deletion policy on the raw modifiers: `onDelete('cascade')` if they list `cascade`, else `onDelete('set null')` if they list `setNull`, else nothing |
| GenerateCrud.ForeignReferenceShifted | src/Commands/GenerateCrudCommand.php:121-122 | this command reads the referenced table from the part the smart command reads as the referenced column (part 3), and the column from part 4; the smart command's table is part 2 |
| GenerateCrud.Classify | src/Commands/GenerateCrudCommand.php:100-131 | a token replaces the column if and only if it is `foreign`; any other token appends the clause the shared mapping gives it |
| GenerateCrud.ClassifyAll | src/Commands/GenerateCrudCommand.php:99-100 | each token is classified in place |
| GenerateCrud.ColumnStatements | src/Commands/GenerateCrudCommand.php:90-135 | exactly one statement per clause, none skipped, in order |
| GenerateCrud.SchemaStatements | src/Commands/GenerateCrudCommand.php:85-141 | the body has clauses plus 3 statements, and statement `i + 1` is the statement of clause `i` |
| GenerateCrud.SchemaText | src/Commands/GenerateCrudCommand.php:88-140 | the generated schema text starts with `$table->id();` and ends with `$table->timestamps();` and `$table->softDeletes();` |
| GenerateCrud.CallsFrom | src/Commands/GenerateCrudCommand.php:99-132 | over a stretch without `foreign`, the walk only appends the recognised tokens' clauses, in order |
| GenerateCrud.AddedAllIsModifierCalls | src/Commands/GenerateCrudCommand.php:99-118 | without `foreign`, the clauses the walk appends are the shared modifier mapping of the trimmed tokens |
| GenerateCrud.CallsWithoutForeign | src/Commands/GenerateCrudCommand.php:97-134 | without a `foreign` token, a column is `{type}(name)` followed by the clauses of its recognised trimmed modifiers, in order |
| GenerateCrud.CallsAfterForeignToken | src/Commands/GenerateCrudCommand.php:120-124 | after a `foreign` token, the column restarts from the foreign-key calls |
| GenerateCrud.CallsAfterLastForeign | src/Commands/GenerateCrudCommand.php:120-131 | with a `foreign` token, the column is the foreign-key calls followed by the clauses of the tokens after the last `foreign`; everything before it is discarded |
| GenerateCrud.LastForeignWalk | src/Commands/GenerateCrudCommand.php:99-132 | the same for any starting column and foreign-key calls |
| GenerateCrud.NullableBeforeForeignDropped | src/Commands/GenerateCrudCommand.php:103-124 | `nullable()` survives if and only if `nullable` is written after the last `foreign` token |
| GenerateCrud.FlagAfterKey | src/Commands/GenerateCrudCommand.php:120-131 | after the foreign-key calls, a flag clause is present if and only if its token is among the modifiers, because the key holds none |
| GenerateCrud.ModifiersOfTrimmed | src/Commands/GenerateCrudCommand.php:96-100 | trimming each token after slicing gives what slicing after trimming every part gives |
| GenerateCrud.PlainStatement | src/Commands/GenerateCrudCommand.php:97-134 | the statement of a clause without `foreign` is the type on the name followed by the modifier clauses |
| GenerateCrud.SmartReadsLikeCrud | src/Commands/GenerateCrudCommand.php:91-100 | the smart command reads the same name, type and modifier tokens from a clause |
| GenerateCrud.SmartPlainStatement | src/Commands/SmartScaffoldCommand.php:122-144 | the smart command's plain statement, stated in this command's reading of the clause |
| GenerateCrud.AgreesWithSmartScaffold | src/Commands/GenerateCrudCommand.php:97-118 | for a clause not named `id`, not of type `foreign` and without a `foreign` token, both commands emit the same single statement |
| GenerateCrud.IdNotSkipped | src/Commands/GenerateCrudCommand.php:88-97 | a field named `id` is not skipped: after the leading `id()`, its clause declares an `id` column a second time, with the type as written |

## Left out

- File I/O is not modelled: reading stubs, writing files, `File::exists` and `ensureDirectoryExists`, and the `str_replace` of the generated text into stub placeholders. For the schema, the field mappings and the filter methods, the model stops at the text handed to the placeholders. For the rules, the messages, the factory fields and the resource fields, it stops at the list of lines that `implode` joins into the placeholder. A missing route file would make `File::get` fail; that case is I/O and is not modelled.
- The request stubs are not part of this model, so the class name they declare is not modelled. A request file is described by its path under the application directory, its stub and the value of `{{ model }}`.
- `Str::` inflection (`plural`, `singular`, `kebab`, `camel`, `studly`, `snake`) is framework code. It enters as the parameters of an `Inflector`.
- `handle`, `generateModel`, `generateController`, `generateMigration`, `generateResources` and `generateFilters` are left out. They read console arguments, format the `date('Y_m_d_His')` timestamp, print `info` output, or only wire the emitters together. Only the field mappings `generateController` substitutes are modelled.
- `generateResponseTrait`, `generateBaseFilter` and `generateResourceCollection` only copy a stub into place, so they are left out.
- The two service providers only register the commands, so they are left out.
- SmartScaffoldFilters.FilterQuery: the `boolean` case keeps the raw request value instead of computing PHP's `filter_var(..., FILTER_VALIDATE_BOOLEAN)`, because that is runtime behaviour of the generated code, not of the generator.
- SmartScaffoldFilters.GenerateModelFilter, SmartScaffold.GenerateFieldMappings, SmartScaffold.BuildSchemaContent and GenerateCrud.BuildSchemaContent join their lines with `implode`. Their contracts are on the line lists (and, for the schema, in `SchemaText`), not on the joined text.
- The `implode` of the rule lines, the message lines, the factory lines and the resource lines is not modelled; their contracts are on the line lists.
- Blueprint.Render: its own contract only fixes the `$table` prefix and the `;` suffix. The order of the calls between them is stated by `RenderSplit`, `RenderCallsAppend` and `RenderStartsWithFirstCall`.
- Strings.Trim: its own contract states that the result has no trim character at either end and is unchanged on trimmed input. That it is a slice of the argument with only trim characters cut away is the separate lemma `TrimSlice`. An existential in `Trim`'s own contract would enter every proof that trims a field name.
- Routes.InsertUse: models the `preg_replace` replacement as literal text. PHP reads a backslash or dollar sign followed by a digit, and `${`, as back-references, and reads a backslash before a backslash or dollar sign as an escape. `UseLineIsLiteral` proves the `use` line has none of these when the model name starts with no digit and has no backslash or dollar sign. Other model names are not modelled.

## Findings

| source | as written | input that shows it | evidently intended | confidence | as-written member | corrected member |
|---|---|---|---|---|---|---|
| src/Commands/SmartScaffoldCommand.php:163-171 (same code at src/Commands/GenerateCrudCommand.php:154-162) | The `use` line is inserted only after `<?php` followed by a line feed, and only then is the route line appended, with a line feed in front of it. | A route file holding just `<?php`. The first run finds no `<?php` plus line feed, so it only appends, giving `<?php`, a line feed, and the route line. The second run now finds the line opener and inserts the `use` line, so the file changes again. | Registering the route twice leaves the file as the first registration left it (idempotent). | high, not executed | Routes.PatchNotIdempotentOnBareTag | Routes.PatchRouteFirstIdempotent |

=== FILE: blueprint.dfy ===
/**
 The schema-builder statements a migration body is made of. Every line
 both commands emit into `{{ schema }}` has the shape
 `$table->m1('a', 'b')->m2()...;` — a chain of method calls on `$table`
 whose arguments are single-quoted strings — so a line is modelled as the
 list of its calls and rendered to text once, here.

 The modifier tokens the two commands recognise on a plain column
 (`nullable`, `default(...)`, `unique`, `index`) map to the same calls in
 both, and so does the `onDelete` policy of a foreign key; both are defined
 here once.
 */
module Blueprint {
  import opened Strings
  import opened Wrappers

  /** One `->method('arg', ...)` link of a builder chain. */
  datatype Call = Call(op: string, args: seq<string>)

  /** One `$table->...;` statement. */
  datatype Statement = Statement(calls: seq<Call>)

  function Quote(a: string): string {
    "'" + a + "'"
  }

  function QuoteAll(args: seq<string>): (r: seq<string>)
    ensures |r| == |args|
    ensures forall i :: 0 <= i < |args| ==> r[i] == Quote(args[i])
    decreases |args|
  {
    if |args| == 0 then [] else [Quote(args[0])] + QuoteAll(args[1..])
  }

  function RenderCall(c: Call): string {
    "->" + c.op + "(" + Join(QuoteAll(c.args), ", ") + ")"
  }

  function RenderCalls(cs: seq<Call>): string
    decreases |cs|
  {
    if |cs| == 0 then "" else RenderCall(cs[0]) + RenderCalls(cs[1..])
  }

  /** The text of a statement, as the commands concatenate it. */
  function Render(st: Statement): (r: string)
    ensures StartsWith(r, "$table")
    ensures EndsWith(r, ";")
  {
    "$table" + RenderCalls(st.calls) + ";"
  }

  /** A statement that is a single call of `op` on one column. */
  function Column(op: string, name: string): Statement {
    Statement([Call(op, [name])])
  }

  /** The primary key every migration opens with: `$table->id();`. */
  const IdStatement := Statement([Call("id", [])])

  /** `$table->timestamps();` */
  const TimestampsStatement := Statement([Call("timestamps", [])])

  /** `$table->softDeletes();` */
  const SoftDeletesStatement := Statement([Call("softDeletes", [])])

  /** The frame of every migration body: the primary key, the column
      statements in order, then the timestamps and the soft-delete column. */
  function Body(columns: seq<Statement>): (sts: seq<Statement>)
    ensures |sts| == |columns| + 3
    ensures sts[0] == IdStatement
    ensures forall i :: 0 <= i < |columns| ==> sts[i + 1] == columns[i]
    ensures sts[|sts| - 2] == TimestampsStatement
    ensures sts[|sts| - 1] == SoftDeletesStatement
  {
    [IdStatement] + columns + [TimestampsStatement, SoftDeletesStatement]
  }

  /** The separator the statements of a migration body are joined with. */
  const LineBreak := "\n            "

  /** One rendered line per statement. */
  function RenderAll(sts: seq<Statement>): (lines: seq<string>)
    ensures |lines| == |sts|
    ensures forall i :: 0 <= i < |sts| ==> lines[i] == Render(sts[i])
  {
    seq(|sts|, i requires 0 <= i < |sts| => Render(sts[i]))
  }

  /** The rendered body opens with the primary key and closes with the
      timestamps and then the soft-delete column, whatever the columns. */
  lemma BodyText(columns: seq<Statement>, sep: string)
    ensures var text := Join(RenderAll(Body(columns)), sep);
            && StartsWith(text, "$table->id();" + sep)
            && EndsWith(text, "$table->timestamps();" + sep + "$table->softDeletes();")
  {
    var lines := RenderAll(Body(columns));
    assert lines[0] == Render(IdStatement);
    assert lines[|lines| - 2] == Render(TimestampsStatement);
    assert lines[|lines| - 1] == Render(SoftDeletesStatement);
    FrameText();
    JoinFrame(lines, sep);
  }

  /** The text of the three fixed statements. */
  lemma FrameText()
    ensures Render(IdStatement) == "$table->id();"
    ensures Render(TimestampsStatement) == "$table->timestamps();"
    ensures Render(SoftDeletesStatement) == "$table->softDeletes();"
  {
    RenderBare("id");
    RenderBare("timestamps");
    RenderBare("softDeletes");
  }

  /** A statement of one call without arguments renders as
      `$table->op();`. */
  lemma RenderBare(op: string)
    ensures Render(Statement([Call(op, [])])) == "$table->" + op + "();"
  {
    assert QuoteAll([]) == [];
    assert RenderCalls([Call(op, [])]) == RenderCall(Call(op, [])) + RenderCalls([]);
  }

  /** The builder methods a column modifier token can add. */
  predicate IsModifierMethod(op: string) {
    op == "nullable" || op == "default" || op == "unique" || op == "index"
  }

  /** A token matching `^default\((.*)\)$`: it starts with `default(`,
      ends with `)`, and the text between holds no line feed, which `.`
      does not match. The tokens are trimmed, so `$` can only match at the
      very end. */
  predicate IsDefaultToken(m: string) {
    |m| >= 9 && StartsWith(m, "default(") && EndsWith(m, ")") && '\n' !in m[8..|m| - 1]
  }

  /** The text between `default(` and the final `)`, copied verbatim. */
  function DefaultPayload(m: string): string
    requires IsDefaultToken(m)
  {
    m[8..|m| - 1]
  }

  /** The clause one modifier token appends to a plain column, if any:
      unknown tokens (and `required`) add nothing. */
  function ModifierCall(m: string): (r: Option<Call>)
    ensures r.Some? ==> IsModifierMethod(r.value.op)
    ensures r.Some? && r.value.op != "default" ==> r.value.args == [] && r.value.op == m
    ensures r.Some? <==> m == "nullable" || m == "unique" || m == "index" || IsDefaultToken(m)
  {
    if m == "nullable" then Some(Call("nullable", []))
    else if IsDefaultToken(m) then Some(Call("default", [DefaultPayload(m)]))
    else if m == "unique" then Some(Call("unique", []))
    else if m == "index" then Some(Call("index", []))
    else None
  }

  /** The clauses a list of modifier tokens appends, one per recognised
      token, in token order. */
  function ModifierCalls(ms: seq<string>): (r: seq<Call>)
    ensures |r| <= |ms|
    ensures forall i :: 0 <= i < |r| ==> IsModifierMethod(r[i].op)
    decreases |ms|
  {
    if |ms| == 0 then []
    else
      match ModifierCall(ms[0])
      case Some(c) => [c] + ModifierCalls(ms[1..])
      case None => ModifierCalls(ms[1..])
  }

  /** The payload of `default(v)` is `v` itself, parentheses and quotes
      included, as long as it stays on one line. */
  lemma DefaultPayloadVerbatim(v: string)
    ensures ModifierCall("default(" + v + ")") == Some(Call("default", [v])) <==> '\n' !in v
    ensures '\n' in v ==> ModifierCall("default(" + v + ")") == None
  {
    var m := "default(" + v + ")";
    assert StartsWith(m, "default(");
    assert EndsWith(m, ")");
    assert m[8..|m| - 1] == v;
  }

  /** Modifier clauses follow the order of the tokens: the clauses of a
      concatenation are the concatenation of the clauses. */
  lemma {:induction false} ModifierCallsAppend(a: seq<string>, b: seq<string>)
    ensures ModifierCalls(a + b) == ModifierCalls(a) + ModifierCalls(b)
    decreases |a|
  {
    if |a| == 0 {
      assert a + b == b;
    } else {
      assert (a + b)[1..] == a[1..] + b;
      ModifierCallsAppend(a[1..], b);
    }
  }

  /** A token that is not recognised leaves the clause list unchanged
      wherever it stands. */
  lemma UnknownTokenAddsNothing(a: seq<string>, m: string, b: seq<string>)
    requires ModifierCall(m) == None
    ensures ModifierCalls(a + [m] + b) == ModifierCalls(a + b)
  {
    ModifierCallsAppend(a + [m], b);
    ModifierCallsAppend(a, [m]);
    ModifierCallsAppend(a, b);
    assert ModifierCalls([m]) == [];
  }

  /** A flag modifier (`nullable`, `unique`, `index`) shows up as a clause
      exactly when the token is among the modifiers. */
  lemma {:induction false} FlagClausePresent(ms: seq<string>, flag: string)
    requires flag == "nullable" || flag == "unique" || flag == "index"
    ensures Call(flag, []) in ModifierCalls(ms) <==> flag in ms
    decreases |ms|
  {
    if |ms| > 0 {
      FlagClausePresent(ms[1..], flag);
      assert ms == [ms[0]] + ms[1..];
    }
  }

  /** The deletion policy of a foreign key: `cascade` wins over `setNull`;
      membership is tested on the token list exactly as given. */
  function OnDeleteCalls(ms: seq<string>): (r: seq<Call>)
    ensures |r| <= 1
    ensures Call("onDelete", ["cascade"]) in r <==> "cascade" in ms
    ensures Call("onDelete", ["set null"]) in r <==> "cascade" !in ms && "setNull" in ms
    ensures |r| == 1 <==> "cascade" in ms || "setNull" in ms
  {
    if "cascade" in ms then [Call("onDelete", ["cascade"])]
    else if "setNull" in ms then [Call("onDelete", ["set null"])]
    else []
  }

  /** The text of a rendered single-column statement. */
  lemma RenderColumn(op: string, name: string)
    ensures Render(Column(op, name)) == "$table->" + op + "('" + name + "');"
  {
    var c := Call(op, [name]);
    assert QuoteAll([name]) == [Quote(name)];
    assert RenderCall(c) == "->" + op + "(" + "'" + name + "'" + ")";
    assert RenderCalls([c]) == RenderCall(c) + RenderCalls([]);
  }

  /** A two-argument call separates its quoted arguments with `, `, as in
      `constrained('users', 'id')`. */
  lemma RenderPair(op: string, a: string, b: string)
    ensures RenderCall(Call(op, [a, b])) == "->" + op + "('" + a + "', '" + b + "')"
  {
    assert QuoteAll([a, b]) == [Quote(a), Quote(b)];
    assert Join([Quote(a), Quote(b)], ", ") == Quote(a) + ", " + Join([Quote(b)], ", ");
  }

  /** The calls of a chain render one after the other: the text of a
      concatenation is the concatenation of the texts. */
  lemma {:induction false} RenderCallsAppend(a: seq<Call>, b: seq<Call>)
    ensures RenderCalls(a + b) == RenderCalls(a) + RenderCalls(b)
    decreases |a|
  {
    if |a| == 0 {
      assert a + b == b;
    } else {
      assert (a + b)[1..] == a[1..] + b;
      RenderCallsAppend(a[1..], b);
    }
  }

  /** The first call of a statement is the text right after `$table`. */
  lemma RenderStartsWithFirstCall(st: Statement)
    requires |st.calls| > 0
    ensures StartsWith(Render(st), "$table" + RenderCall(st.calls[0]))
  {
    var r := Render(st);
    var p := "$table" + RenderCall(st.calls[0]);
    assert r == p + RenderCalls(st.calls[1..]) + ";";
    assert r[..|p|] == p;
  }

  /** For any split of the chain, the calls in front render before the
      calls behind. */
  lemma RenderSplit(st: Statement, k: nat)
    requires k <= |st.calls|
    ensures Render(st) == "$table" + RenderCalls(st.calls[..k]) + RenderCalls(st.calls[k..]) + ";"
  {
    assert st.calls == st.calls[..k] + st.calls[k..];
    RenderCallsAppend(st.calls[..k], st.calls[k..]);
  }
}

=== FILE: fieldspec.dfy ===
/**
 The field specification both commands read: the `--fields` option is
 exploded on `,` into clauses and every clause on `:` into positional
 parts — part 0 the field name, part 1 the column type, the rest modifiers
 (or, for a foreign key, the referenced table and column).

 Each emitter of the commands re-reads the raw clause itself, and they do
 not all trim the same parts; this module holds the pieces they share.
 */
module FieldSpec {
  import opened Strings

  /** The comma-separated clauses of a field specification, one per field. */
  function Clauses(fields: string): seq<string> {
    Split(fields, ',')
  }

  /** The colon-separated parts of one clause; there is always a part 0. */
  function Parts(clause: string): seq<string> {
    Split(clause, ':')
  }

  /** PHP `$parts[$i] ?? $default`. */
  function PartOr(parts: seq<string>, i: nat, default: string): string {
    if i < |parts| then parts[i] else default
  }

  /** PHP `array_slice($parts, 2)`: everything after name and type. */
  function Modifiers(parts: seq<string>): seq<string> {
    if |parts| <= 2 then [] else parts[2..]
  }

  /** `trim` applied to every element (`array_map('trim', ...)`). */
  function TrimAll(xs: seq<string>): (r: seq<string>)
    ensures |r| == |xs|
    ensures forall i :: 0 <= i < |xs| ==> r[i] == Trim(xs[i])
  {
    seq(|xs|, i requires 0 <= i < |xs| => Trim(xs[i]))
  }

  /** The trimmed field name every emitter reads from part 0. */
  function ClauseName(clause: string): string {
    Trim(Parts(clause)[0])
  }

  /** The trimmed column type (`string` when the clause has no part 1). */
  function ClauseType(clause: string): string {
    Trim(PartOr(Parts(clause), 1, "string"))
  }

  /** Names the request, factory, resource and filter emitters treat as
      system-managed and skip. */
  predicate IsReserved(name: string) {
    name == "id" || name == "created_at" || name == "updated_at" || name == "deleted_at"
  }

  /** The clauses an emitter that skips reserved names actually emits, in
      specification order: the reference the emitters are proved against. */
  function Kept(clauses: seq<string>): (r: seq<string>)
    ensures |r| <= |clauses|
    decreases |clauses|
  {
    if |clauses| == 0 then []
    else if IsReserved(ClauseName(clauses[0])) then Kept(clauses[1..])
    else [clauses[0]] + Kept(clauses[1..])
  }

  /** The loop every skipping emitter runs: for each clause in order, skip
      it when its name is reserved, otherwise emit `emit(clause)`. */
  function EmitKept<T>(emit: string -> T, clauses: seq<string>): (r: seq<T>)
    ensures |r| == |Kept(clauses)|
    ensures forall i :: 0 <= i < |r| ==> r[i] == emit(Kept(clauses)[i])
    decreases |clauses|
  {
    if |clauses| == 0 then []
    else
      var rest := EmitKept(emit, clauses[1..]);
      var k := Kept(clauses[1..]);
      if IsReserved(ClauseName(clauses[0])) then
        assert Kept(clauses) == k;
        rest
      else
        assert Kept(clauses) == [clauses[0]] + k;
        EmitCons(emit, clauses[0], k, rest);
        [emit(clauses[0])] + rest
  }

  /** Emitting one more clause in front keeps the emission pointwise. */
  lemma EmitCons<T>(emit: string -> T, c: string, k: seq<string>, rest: seq<T>)
    requires |rest| == |k| && forall i :: 0 <= i < |rest| ==> rest[i] == emit(k[i])
    ensures |[emit(c)] + rest| == |[c] + k|
    ensures forall i :: 0 <= i < |rest| + 1 ==> ([emit(c)] + rest)[i] == emit(([c] + k)[i])
  {
  }

  /** No kept clause has a reserved name. */
  lemma {:induction false} KeptNotReserved(clauses: seq<string>, i: nat)
    requires i < |Kept(clauses)|
    ensures !IsReserved(ClauseName(Kept(clauses)[i]))
    decreases |clauses|
  {
    if !IsReserved(ClauseName(clauses[0])) && i > 0 {
      KeptNotReserved(clauses[1..], i - 1);
    } else if IsReserved(ClauseName(clauses[0])) {
      KeptNotReserved(clauses[1..], i);
    }
  }

  /** Exactly the clauses with a non-reserved name are kept. */
  lemma {:induction false} KeptMembers(clauses: seq<string>, c: string)
    ensures c in Kept(clauses) <==> c in clauses && !IsReserved(ClauseName(c))
    decreases |clauses|
  {
    if |clauses| > 0 {
      var rest := clauses[1..];
      KeptMembers(rest, c);
      KeptStep(clauses, c);
    }
  }

  /** One step of `Kept`: membership of the whole list from membership of
      its tail. */
  lemma KeptStep(clauses: seq<string>, c: string)
    requires |clauses| > 0
    ensures c in Kept(clauses) <==>
              (c == clauses[0] && !IsReserved(ClauseName(c))) || c in Kept(clauses[1..])
    ensures c in clauses <==> c == clauses[0] || c in clauses[1..]
  {
    assert clauses == [clauses[0]] + clauses[1..];
  }

  /** Keeping commutes with concatenation, so kept clauses stay in order. */
  lemma {:induction false} KeptAppend(a: seq<string>, b: seq<string>)
    ensures Kept(a + b) == Kept(a) + Kept(b)
    decreases |a|
  {
    if |a| > 0 {
      assert (a + b)[1..] == a[1..] + b;
      KeptAppend(a[1..], b);
    } else {
      assert a + b == b;
    }
  }

  /** A reserved clause is dropped: the kept clauses are strictly fewer. */
  lemma KeptDropsReserved(clauses: seq<string>, i: nat)
    requires i < |clauses| && IsReserved(ClauseName(clauses[i]))
    ensures |Kept(clauses)| < |clauses|
  {
    var front, back := clauses[..i], clauses[i..];
    assert clauses == front + back;
    KeptAppend(front, back);
    assert Kept(back) == Kept(back[1..]);
  }

  /**
   The `Str::` inflection helpers of the framework (plural, singular,
   kebab, camel, studly). Their behaviour belongs to the framework, so the
   model takes them as parameters and proves nothing that depends on them.
   */
  datatype Inflector = Inflector(
    plural: string -> string,
    singular: string -> string,
    kebab: string -> string,
    camel: string -> string,
    studly: string -> string)
}

=== FILE: generate_crud.dfy ===
/**
 The migration body of the plain CRUD command (`buildSchemaContent` of
 `GenerateCrudCommand`): `$table->id();`, one statement per clause, then
 `$table->timestamps();` and `$table->softDeletes();`.

 Unlike the smart command, this one skips no field, reads the modifier
 tokens raw and trims each one as it walks them, and treats `foreign` as a
 modifier: when the walk meets it, everything built so far for the column
 is thrown away and replaced by `foreignId(name)->constrained(table,
 column)`, table and column read from parts 3 and 4. Tokens after it keep
 being applied.
 */
module GenerateCrud {
  import opened Strings
  import opened FieldSpec
  import opened Wrappers
  import opened Blueprint
  import SmartScaffold

  /** A clause as this command reads it: trimmed name and type, raw parts
      kept for the foreign-key lookups and the modifier walk. */
  datatype CrudClause = CrudClause(name: string, fieldType: string, parts: seq<string>)

  function ParseClause(clause: string): (c: CrudClause)
    ensures c.name == ClauseName(clause) && c.fieldType == ClauseType(clause)
    ensures c.parts == Parts(clause)
  {
    var parts := Parts(clause);
    CrudClause(Trim(parts[0]), Trim(PartOr(parts, 1, "string")), parts)
  }

  /** The untrimmed modifier tokens, `array_slice($parts, 2)`. */
  function RawModifiers(c: CrudClause): seq<string> {
    Modifiers(c.parts)
  }

  /** The tokens as the walk sees them, each one trimmed. */
  function Tokens(c: CrudClause): (ts: seq<string>)
    ensures |ts| == |RawModifiers(c)|
    ensures forall i :: 0 <= i < |ts| ==> ts[i] == Trim(RawModifiers(c)[i])
  {
    TrimAll(RawModifiers(c))
  }

  /** The calls a `foreign` token puts in place of the column:
      `foreignId(name)->constrained(table, column)` and the deletion
      policy, looked up in the raw token list. */
  function ForeignCalls(c: CrudClause): (r: seq<Call>)
    ensures 2 <= |r| <= 3 && r[0] == Call("foreignId", [c.name])
    ensures r[1] == Call("constrained", [Trim(PartOr(c.parts, 3, "users")), Trim(PartOr(c.parts, 4, "id"))])
    ensures forall x :: x in r ==> x.op == "foreignId" || x.op == "constrained" || x.op == "onDelete"
    ensures Call("onDelete", ["cascade"]) in r <==> "cascade" in RawModifiers(c)
    ensures Call("onDelete", ["set null"]) in r
            <==> "cascade" !in RawModifiers(c) && "setNull" in RawModifiers(c)
    ensures r[2..] == OnDeleteCalls(RawModifiers(c))
  {
    var key := [ Call("foreignId", [c.name]),
                 Call("constrained", [Trim(PartOr(c.parts, 3, "users")), Trim(PartOr(c.parts, 4, "id"))]) ];
    var policy := OnDeleteCalls(RawModifiers(c));
    assert forall x :: x in key + policy <==> x in key || x in policy;
    assert key[0].op != "onDelete" && key[1].op != "onDelete";
    key + policy
  }

  /** What one trimmed token does to the column: `foreign` replaces it,
      any other token appends the clause it maps to, if any. */
  datatype Token = ForeignToken | ColumnModifier(clause: Option<Call>)

  /** The `if`/`elseif` chain of the walk for one trimmed token. */
  function Classify(m: string): (t: Token)
    ensures t == ForeignToken <==> m == "foreign"
    ensures t.ColumnModifier? ==> t.clause == ModifierCall(m)
  {
    if m == "foreign" then ForeignToken else ColumnModifier(ModifierCall(m))
  }

  function ClassifyAll(ts: seq<string>): (toks: seq<Token>)
    ensures |toks| == |ts|
    ensures forall i :: 0 <= i < |ts| ==> toks[i] == Classify(ts[i])
  {
    seq(|ts|, i requires 0 <= i < |ts| => Classify(ts[i]))
  }

  /** The clauses one non-`foreign` token appends. */
  function Added(t: Token): seq<Call> {
    match t
    case ColumnModifier(Some(x)) => [x]
    case _ => []
  }

  /** The clauses a run of tokens appends, in order. */
  function AddedAll(toks: seq<Token>): seq<Call>
    decreases |toks|
  {
    if |toks| == 0 then [] else Added(toks[0]) + AddedAll(toks[1..])
  }

  /** The column's calls after the walk has handled the first `n` tokens,
      starting from the column call `column`, with `foreignKey` the calls
      a `foreign` token puts in its place: the loop of
      `buildSchemaContent` over the modifiers, one step per token. */
  function CallsAfter(column: seq<Call>, foreignKey: seq<Call>, toks: seq<Token>, n: nat): seq<Call>
    requires n <= |toks|
    decreases n
  {
    if n == 0 then column
    else
      match toks[n - 1]
      case ForeignToken => foreignKey
      case ColumnModifier(_) => CallsAfter(column, foreignKey, toks, n - 1) + Added(toks[n - 1])
  }

  /** The calls of the whole column, every token handled. */
  function ColumnCalls(c: CrudClause): seq<Call> {
    var toks := ClassifyAll(Tokens(c));
    CallsAfter([Call(c.fieldType, [c.name])], ForeignCalls(c), toks, |toks|)
  }

  /** The statement of one clause. */
  function ClauseStatement(clause: string): Statement {
    Statement(ColumnCalls(ParseClause(clause)))
  }

  /** The statements of the clauses, one per clause, none skipped. */
  function ColumnStatements(cs: seq<string>): (sts: seq<Statement>)
    ensures |sts| == |cs|
    ensures forall i :: 0 <= i < |cs| ==> sts[i] == ClauseStatement(cs[i])
  {
    seq(|cs|, i requires 0 <= i < |cs| => ClauseStatement(cs[i]))
  }

  /** The whole migration body as statements. */
  function SchemaStatements(fields: string): (sts: seq<Statement>)
    ensures |sts| == |Clauses(fields)| + 3
    ensures forall i :: 0 <= i < |Clauses(fields)| ==> sts[i + 1] == ClauseStatement(Clauses(fields)[i])
  {
    Body(ColumnStatements(Clauses(fields)))
  }

  /** The text substituted for `{{ schema }}`. */
  function BuildSchemaContent(fields: string): string {
    Join(RenderAll(SchemaStatements(fields)), LineBreak)
  }

  /** The text opens with `$table->id();` and closes with
      `$table->timestamps();` and then `$table->softDeletes();`. */
  lemma SchemaText(fields: string)
    ensures StartsWith(BuildSchemaContent(fields), "$table->id();" + LineBreak)
    ensures EndsWith(BuildSchemaContent(fields), "$table->timestamps();" + LineBreak + "$table->softDeletes();")
  {
    BodyText(ColumnStatements(Clauses(fields)), LineBreak);
  }

  lemma {:induction false} AddedAllAppend(a: seq<Token>, b: seq<Token>)
    ensures AddedAll(a + b) == AddedAll(a) + AddedAll(b)
    decreases |a|
  {
    if |a| == 0 {
      assert a + b == b;
    } else {
      assert (a + b)[1..] == a[1..] + b;
      AddedAllAppend(a[1..], b);
    }
  }

  /** Over a stretch of tokens none of which is `foreign`, the walk only
      appends: the clauses of the recognised tokens, in order. */
  lemma {:induction false} CallsFrom(column: seq<Call>, foreignKey: seq<Call>, toks: seq<Token>, j: nat, n: nat)
    requires j <= n <= |toks|
    requires forall i :: j <= i < n ==> toks[i].ColumnModifier?
    ensures CallsAfter(column, foreignKey, toks, n)
            == CallsAfter(column, foreignKey, toks, j) + AddedAll(toks[j..n])
    decreases n
  {
    if n == j {
      assert toks[j..n] == [];
    } else {
      var t, pre, mid := toks[n - 1], CallsAfter(column, foreignKey, toks, j), AddedAll(toks[j..n - 1]);
      CallsFrom(column, foreignKey, toks, j, n - 1);
      CallsStep(column, foreignKey, toks, n);
      AddedAllSlice(toks, j, n);
      assert (pre + mid) + Added(t) == pre + (mid + Added(t));
    }
  }

  /** A recognised token appends its clauses to the walk. */
  lemma CallsStep(column: seq<Call>, foreignKey: seq<Call>, toks: seq<Token>, n: nat)
    requires 0 < n <= |toks| && toks[n - 1].ColumnModifier?
    ensures CallsAfter(column, foreignKey, toks, n)
            == CallsAfter(column, foreignKey, toks, n - 1) + Added(toks[n - 1])
  {
  }

  /** Extending a stretch of tokens by one appends that token's clauses. */
  lemma AddedAllSlice(toks: seq<Token>, j: nat, n: nat)
    requires j < n <= |toks|
    ensures AddedAll(toks[j..n]) == AddedAll(toks[j..n - 1]) + Added(toks[n - 1])
  {
    var t := toks[n - 1];
    assert toks[j..n] == toks[j..n - 1] + [t];
    AddedAllAppend(toks[j..n - 1], [t]);
    assert AddedAll([t]) == Added(t) + AddedAll([]);
  }

  /** On tokens without `foreign`, the clauses the walk appends are the
      shared modifier mapping of the trimmed tokens. */
  lemma {:induction false} AddedAllIsModifierCalls(ts: seq<string>)
    requires "foreign" !in ts
    ensures AddedAll(ClassifyAll(ts)) == ModifierCalls(ts)
    decreases |ts|
  {
    if |ts| > 0 {
      AddedAllIsModifierCalls(ts[1..]);
      assert ClassifyAll(ts)[1..] == ClassifyAll(ts[1..]);
      assert ts[0] in ts;
    }
  }

  /** Without a `foreign` token the walk is the shared modifier mapping:
      the column call, then one clause per recognised trimmed token, in
      order. */
  lemma CallsWithoutForeign(c: CrudClause)
    requires "foreign" !in Tokens(c)
    ensures ColumnCalls(c) == [Call(c.fieldType, [c.name])] + ModifierCalls(Tokens(c))
  {
    var ts := Tokens(c);
    var toks := ClassifyAll(ts);
    forall i | 0 <= i < |toks|
      ensures toks[i].ColumnModifier?
    {
      assert ts[i] in ts;
    }
    CallsFrom([Call(c.fieldType, [c.name])], ForeignCalls(c), toks, 0, |toks|);
    assert toks[0..|toks|] == toks;
    AddedAllIsModifierCalls(ts);
  }

  /** After a `foreign` token the column restarts from the foreign-key
      calls. */
  lemma CallsAfterForeignToken(column: seq<Call>, foreignKey: seq<Call>, toks: seq<Token>, k: nat)
    requires k < |toks| && toks[k] == ForeignToken
    requires forall i :: k < i < |toks| ==> toks[i].ColumnModifier?
    ensures CallsAfter(column, foreignKey, toks, |toks|) == foreignKey + AddedAll(toks[k + 1..])
  {
    CallsFrom(column, foreignKey, toks, k + 1, |toks|);
    assert toks[k + 1..|toks|] == toks[k + 1..];
  }

  /** Classifying commutes with dropping a prefix. */
  lemma ClassifyAllSuffix(ts: seq<string>, j: nat)
    requires j <= |ts|
    ensures ClassifyAll(ts)[j..] == ClassifyAll(ts[j..])
  {
  }

  /** The last `foreign` token decides: what came before it is discarded,
      and the tokens after it add their clauses behind the foreign-key
      calls. */
  lemma CallsAfterLastForeign(c: CrudClause, k: nat)
    requires k < |Tokens(c)| && Tokens(c)[k] == "foreign"
    requires "foreign" !in Tokens(c)[k + 1..]
    ensures ColumnCalls(c) == ForeignCalls(c) + ModifierCalls(Tokens(c)[k + 1..])
  {
    LastForeignWalk([Call(c.fieldType, [c.name])], ForeignCalls(c), Tokens(c), k);
  }

  /** `CallsAfterLastForeign` for any column call and foreign-key calls. */
  lemma LastForeignWalk(column: seq<Call>, foreignKey: seq<Call>, ts: seq<string>, k: nat)
    requires k < |ts| && ts[k] == "foreign"
    requires "foreign" !in ts[k + 1..]
    ensures CallsAfter(column, foreignKey, ClassifyAll(ts), |ts|) == foreignKey + ModifierCalls(ts[k + 1..])
  {
    var toks := ClassifyAll(ts);
    TailRecognised(ts, k);
    CallsAfterForeignToken(column, foreignKey, toks, k);
    ClassifyAllSuffix(ts, k + 1);
    AddedAllIsModifierCalls(ts[k + 1..]);
  }

  /** Every token after the last `foreign` one is a column modifier. */
  lemma TailRecognised(ts: seq<string>, k: nat)
    requires k < |ts| && "foreign" !in ts[k + 1..]
    ensures forall i :: k < i < |ts| ==> ClassifyAll(ts)[i].ColumnModifier?
  {
    forall i | k < i < |ts|
      ensures ClassifyAll(ts)[i].ColumnModifier?
    {
      assert ts[i] == ts[k + 1..][i - k - 1];
    }
  }

  /** The position of the last `foreign` token, at or after a known one. */
  function LastForeign(ts: seq<string>, k: nat): (last: nat)
    requires k < |ts| && ts[k] == "foreign"
    ensures k <= last < |ts| && ts[last] == "foreign"
    ensures "foreign" !in ts[last + 1..]
    decreases |ts| - k
  {
    if "foreign" in ts[k + 1..] then
      var j :| k < j < |ts| && ts[j] == "foreign";
      LastForeign(ts, j)
    else k
  }

  /** A modifier written before `foreign` is lost: a `nullable` in front of
      the token reaches the statement only when it is repeated after it. */
  lemma NullableBeforeForeignDropped(c: CrudClause, k: nat)
    requires k < |Tokens(c)|
    requires Tokens(c)[k] == "foreign"
    ensures Call("nullable", []) in ColumnCalls(c) <==> "nullable" in Tokens(c)[LastForeign(Tokens(c), k) + 1..]
  {
    var ts := Tokens(c);
    var last := LastForeign(ts, k);
    CallsAfterLastForeign(c, last);
    FlagAfterKey(ForeignCalls(c), ts[last + 1..], "nullable");
  }

  /** A flag clause follows a key that holds no such call exactly when its
      token is among the modifiers. */
  lemma FlagAfterKey(key: seq<Call>, ms: seq<string>, flag: string)
    requires flag == "nullable" || flag == "unique" || flag == "index"
    requires forall x :: x in key ==> x.op == "foreignId" || x.op == "constrained" || x.op == "onDelete"
    ensures Call(flag, []) in key + ModifierCalls(ms) <==> flag in ms
  {
    FlagClausePresent(ms, flag);
    assert Call(flag, []) !in key;
  }

  /** Trimming every part and then slicing off name and type gives the
      same tokens as slicing first and trimming each token. */
  lemma ModifiersOfTrimmed(parts: seq<string>)
    ensures Modifiers(TrimAll(parts)) == TrimAll(Modifiers(parts))
  {
    var a := Modifiers(TrimAll(parts));
    var b := TrimAll(Modifiers(parts));
    if |parts| > 2 {
      assert |a| == |b|;
      forall i | 0 <= i < |a|
        ensures a[i] == b[i]
      {
        assert a[i] == TrimAll(parts)[i + 2];
        assert Modifiers(parts)[i] == parts[i + 2];
      }
    }
  }

  /** The statement of a clause without a `foreign` token. */
  lemma PlainStatement(clause: string)
    requires "foreign" !in Tokens(ParseClause(clause))
    ensures ClauseStatement(clause)
            == Statement([Call(ClauseType(clause), [ClauseName(clause)])] + ModifierCalls(TrimAll(Modifiers(Parts(clause)))))
  {
    CallsWithoutForeign(ParseClause(clause));
  }

  /** The smart command reads name, type and modifier tokens of a clause
      as this one does: trimmed. */
  lemma SmartReadsLikeCrud(clause: string)
    ensures SmartScaffold.SchemaName(clause) == ClauseName(clause)
    ensures SmartScaffold.SchemaType(clause) == ClauseType(clause)
    ensures Modifiers(SmartScaffold.SchemaParts(clause)) == TrimAll(Modifiers(Parts(clause)))
  {
    assert IsTrimmed("string");
    ModifiersOfTrimmed(Parts(clause));
  }

  /** The two commands read a foreign key's reference one part apart: the
      part the smart command takes as the referenced column (part 3) is the
      table here, and the column comes from part 4. */
  lemma ForeignReferenceShifted(clause: string)
    requires |Parts(clause)| >= 4
    ensures ForeignCalls(ParseClause(clause))[1]
            == Call("constrained", [SmartScaffold.ForeignColumn(clause), Trim(PartOr(Parts(clause), 4, "id"))])
    ensures SmartScaffold.ForeignTable(clause) == Trim(Parts(clause)[2])
  {
    var parts := Parts(clause);
    assert SmartScaffold.SchemaParts(clause)[3] == Trim(parts[3]);
    assert SmartScaffold.SchemaParts(clause)[2] == Trim(parts[2]);
  }

  /** The smart command's statement of a plain clause, in the terms this
      command reads the clause in. */
  lemma SmartPlainStatement(clause: string)
    requires SmartScaffold.SchemaName(clause) != "id"
    requires SmartScaffold.SchemaType(clause) != "foreign"
    ensures SmartScaffold.ClauseStatements(clause)
            == [Statement([Call(ClauseType(clause), [ClauseName(clause)])] + ModifierCalls(TrimAll(Modifiers(Parts(clause)))))]
  {
    var sts := SmartScaffold.ClauseStatements(clause);
    SmartScaffold.PlainClause(clause);
    assert sts[0].calls == [sts[0].calls[0]] + sts[0].calls[1..];
    SmartReadsLikeCrud(clause);
  }

  /** Where both commands emit one plain column, they emit the same
      statement: same column call, same modifier clauses in the same
      order. */
  lemma AgreesWithSmartScaffold(clause: string)
    requires SmartScaffold.SchemaName(clause) != "id"
    requires SmartScaffold.SchemaType(clause) != "foreign"
    requires "foreign" !in Tokens(ParseClause(clause))
    ensures SmartScaffold.ClauseStatements(clause) == [ClauseStatement(clause)]
  {
    PlainStatement(clause);
    SmartPlainStatement(clause);
  }

  /** A field named `id` is not skipped: the body declares the column a
      second time, with the type as written. */
  lemma IdNotSkipped(fields: string, i: nat)
    requires i < |Clauses(fields)|
    requires ClauseName(Clauses(fields)[i]) == "id"
    requires "foreign" !in Tokens(ParseClause(Clauses(fields)[i]))
    ensures SchemaStatements(fields)[0] == IdStatement
    ensures var clause := Clauses(fields)[i];
            SchemaStatements(fields)[i + 1]
              == Statement([Call(ClauseType(clause), ["id"])] + ModifierCalls(TrimAll(Modifiers(Parts(clause)))))
  {
    var clause := Clauses(fields)[i];
    PlainStatement(clause);
  }
}

=== FILE: routes.dfy ===
/**
 The route-file patch both commands apply (`addApiResourceRoute`): unless
 the contents already hold the controller's `use` line, insert it after
 every `<?php` line opener; then, unless the contents already hold the
 `Route::apiResource(...)` line, append it on a line of its own.

 The patch is not idempotent on every input: when the contents hold
 neither the `use` line nor `<?php` followed by a newline but end in
 `<?php`, the appended route line supplies the missing newline, and a
 second run inserts the `use` line. `Patch` models the code as written;
 `PatchRouteFirst` appends the route before inserting the `use` line and
 is idempotent.
 */
module Routes {
  import opened Strings
  import opened FieldSpec

  /** The anchor the `use` line is inserted after. */
  const OpenTag := "<?php\n"

  /** `use App\Http\Controllers\{Controller};` */
  function UseStatement(controller: string): string {
    "use App\\Http\\Controllers\\" + controller + ";"
  }

  /** `Route::apiResource('{route}', {Controller}::class);` */
  function RouteDefinition(routeName: string, controller: string): string {
    "Route::apiResource('" + routeName + "', " + controller + "::class);"
  }

  /** The text that replaces every opening tag when the `use` line is
      inserted. */
  function TagWithUse(useLine: string): string {
    "<?php\n\n" + useLine + "\n"
  }

  /** Step one: insert the `use` line after every opening tag, unless it is
      already present. The rest of the file is kept: the insertion is the
      left-to-right replacement of each `<?php` line opener, which
      `InsertUseUndo` reverses. */
  function InsertUse(contents: string, useLine: string): (r: string)
    ensures Contains(contents, useLine) ==> r == contents
    ensures !Contains(contents, useLine) ==> r == ReplaceAll(contents, OpenTag, TagWithUse(useLine))
    ensures Contains(contents, OpenTag) ==> Contains(r, useLine)
    ensures !Contains(contents, OpenTag) ==> r == contents
  {
    if Contains(contents, useLine) then contents
    else
      var r := ReplaceAll(contents, OpenTag, TagWithUse(useLine));
      if Contains(contents, OpenTag) then
        ReplaceAllPresent(contents, OpenTag, TagWithUse(useLine));
        ContainsPrefix(useLine, useLine);
        ContainsExtendLeft("<?php\n\n", useLine, useLine);
        ContainsExtendRight("<?php\n\n" + useLine, useLine, "\n");
        ContainsTransitive(r, TagWithUse(useLine), useLine);
        r
      else
        ReplaceAllAbsent(contents, OpenTag, TagWithUse(useLine));
        r
  }

  /** Step two: append the route line, unless it is already present. */
  function AppendRoute(contents: string, routeLine: string): (r: string)
    ensures Contains(r, routeLine)
    ensures StartsWith(r, contents)
    ensures Contains(contents, routeLine) ==> r == contents
    ensures !Contains(contents, routeLine) ==> r == contents + "\n" + routeLine + "\n"
  {
    if Contains(contents, routeLine) then contents
    else
      var r := contents + "\n" + routeLine + "\n";
      ContainsExtendLeft(contents + "\n", routeLine + "\n", routeLine);
      assert r == (contents + "\n") + (routeLine + "\n");
      assert r[..|contents|] == contents;
      r
  }

  /** The patch as both commands write it. */
  function Patch(contents: string, useLine: string, routeLine: string): (r: string)
    ensures Contains(r, routeLine)
    ensures Contains(contents, OpenTag) ==> Contains(r, useLine)
    ensures Contains(InsertUse(contents, useLine), routeLine) ==> r == InsertUse(contents, useLine)
    ensures !Contains(InsertUse(contents, useLine), routeLine)
            ==> r == InsertUse(contents, useLine) + "\n" + routeLine + "\n"
    ensures Contains(contents, useLine) || !Contains(contents, OpenTag) ==> StartsWith(r, contents)
  {
    var inserted := InsertUse(contents, useLine);
    var r := AppendRoute(inserted, routeLine);
    PrefixContains(r, inserted, useLine);
    r
  }

  /** `addApiResourceRoute($modelName)` on the contents of the route file. */
  function AddApiResourceRoute(inf: Inflector, modelName: string, contents: string): (r: string)
    ensures Contains(r, RouteDefinition(inf.kebab(inf.plural(modelName)), modelName + "Controller"))
    ensures Contains(contents, OpenTag) ==> Contains(r, UseStatement(modelName + "Controller"))
    ensures var inserted := InsertUse(contents, UseStatement(modelName + "Controller"));
            var routeLine := RouteDefinition(inf.kebab(inf.plural(modelName)), modelName + "Controller");
            && (Contains(inserted, routeLine) ==> r == inserted)
            && (!Contains(inserted, routeLine) ==> r == inserted + "\n" + routeLine + "\n")
    ensures Contains(contents, UseStatement(modelName + "Controller")) || !Contains(contents, OpenTag)
            ==> StartsWith(r, contents)
  {
    var controller := modelName + "Controller";
    Patch(contents, UseStatement(controller), RouteDefinition(inf.kebab(inf.plural(modelName)), controller))
  }

  lemma {:induction false} ContainsTransitive(s: string, t: string, u: string)
    requires Contains(s, t) && Contains(t, u)
    ensures Contains(s, u)
    decreases |s|
  {
    if StartsWith(s, t) {
      assert s == t + s[|t|..];
      ContainsExtendRight(t, u, s[|t|..]);
    } else {
      ContainsTransitive(s[1..], t, u);
      assert s == [s[0]] + s[1..];
      ContainsExtendLeft([s[0]], s[1..], u);
    }
  }

  lemma PrefixContains(s: string, p: string, t: string)
    ensures StartsWith(s, p) && Contains(p, t) ==> Contains(s, t)
  {
    if StartsWith(s, p) && Contains(p, t) {
      assert s == p + s[|p|..];
      ContainsExtendRight(p, t, s[|p|..]);
    }
  }

  /** Exactly when a second run changes the file: its `use` line is still
      missing although an opening tag is now present. */
  lemma PatchIdempotentIff(contents: string, useLine: string, routeLine: string)
    ensures var once := Patch(contents, useLine, routeLine);
            var twice := Patch(once, useLine, routeLine);
            twice == once <==> Contains(once, useLine) || !Contains(once, OpenTag)
  {
    var once := Patch(contents, useLine, routeLine);
    var twice := Patch(once, useLine, routeLine);
    if !Contains(once, useLine) && Contains(once, OpenTag) {
      assert Contains(twice, useLine);
    }
  }

  /** A file that already has an opening tag followed by a newline, or
      already has the `use` line, reaches its fixed point in one run. */
  lemma PatchIdempotentWithOpenTag(contents: string, useLine: string, routeLine: string)
    requires Contains(contents, OpenTag) || Contains(contents, useLine)
    ensures Patch(Patch(contents, useLine, routeLine), useLine, routeLine)
            == Patch(contents, useLine, routeLine)
  {
    var once := Patch(contents, useLine, routeLine);
    if Contains(contents, useLine) {
      PrefixContains(once, contents, useLine);
    }
    PatchIdempotentIff(contents, useLine, routeLine);
  }

  /** The counterexample: a route file holding just `<?php`, without a
      newline, is changed again by a second run. */
  lemma PatchNotIdempotentOnBareTag(routeName: string, controller: string)
    requires '\\' !in routeName && '\\' !in controller
    ensures var useLine := UseStatement(controller);
            var routeLine := RouteDefinition(routeName, controller);
            var once := Patch("<?php", useLine, routeLine);
            Patch(once, useLine, routeLine) != once
  {
    var useLine := UseStatement(controller);
    var routeLine := RouteDefinition(routeName, controller);
    RouteDefinitionHasNoBackslash(routeName, controller);
    BareTagOnce(useLine, routeLine);
    var once := "<?php" + "\n" + routeLine + "\n";
    assert StartsWith(once, OpenTag);
    ContainsPrefix(once, OpenTag);
    assert useLine[7] == '\\';
    if Contains(once, useLine) {
      ContainsCharacters(once, useLine, 7);
      assert false;
    }
    PatchIdempotentIff("<?php", useLine, routeLine);
  }

  /** The first run on `<?php` only appends the route line. */
  lemma BareTagOnce(useLine: string, routeLine: string)
    requires |useLine| > 5 && |routeLine| > 5
    ensures Patch("<?php", useLine, routeLine) == "<?php" + "\n" + routeLine + "\n"
  {
    if Contains("<?php", useLine) {
      ContainsNotLonger("<?php", useLine);
    }
    if Contains("<?php", OpenTag) {
      ContainsNotLonger("<?php", OpenTag);
    }
    if Contains("<?php", routeLine) {
      ContainsNotLonger("<?php", routeLine);
    }
  }

  /** Without a backslash in its arguments, the route line has none. */
  lemma RouteDefinitionHasNoBackslash(routeName: string, controller: string)
    requires '\\' !in routeName && '\\' !in controller
    ensures '\\' !in RouteDefinition(routeName, controller)
    ensures '\\' !in "<?php" + "\n" + RouteDefinition(routeName, controller) + "\n"
    ensures |RouteDefinition(routeName, controller)| > 5
  {
  }

  /** The corrected patch: append the route line first, then insert the
      `use` line, so the newline the route step adds is seen by the insert
      step. */
  function PatchRouteFirst(contents: string, useLine: string, routeLine: string): (r: string)
    requires |routeLine| > 0 && routeLine[0] !in OpenTag && '<' !in routeLine
    ensures Contains(r, routeLine)
    ensures Contains(r, OpenTag) ==> Contains(r, useLine)
    ensures Contains(contents, routeLine) ==> r == InsertUse(contents, useLine)
    ensures !Contains(contents, routeLine) ==> r == InsertUse(contents + "\n" + routeLine + "\n", useLine)
  {
    var appended := AppendRoute(contents, routeLine);
    var r := InsertUse(appended, useLine);
    assert Contains(r, OpenTag) && !Contains(r, useLine) ==> r == appended;
    InsertUseKeepsRoute(appended, useLine, routeLine);
    r
  }

  /** Inserting the `use` line keeps a route line that no opening tag can
      overlap. */
  lemma InsertUseKeepsRoute(contents: string, useLine: string, routeLine: string)
    requires |routeLine| > 0 && routeLine[0] !in OpenTag && '<' !in routeLine
    requires Contains(contents, routeLine)
    ensures Contains(InsertUse(contents, useLine), routeLine)
  {
    if !Contains(contents, useLine) {
      ReplaceAllKeepsContains(contents, routeLine, OpenTag, TagWithUse(useLine));
    }
  }

  /** Nothing of the file is lost when the `use` line is inserted: turning
      every inserted block back into a bare opening tag gives the contents
      back, for a `use` line without `<`. */
  lemma InsertUseUndo(contents: string, useLine: string)
    requires '<' !in useLine
    requires !Contains(contents, useLine)
    ensures ReplaceAll(InsertUse(contents, useLine), TagWithUse(useLine), OpenTag) == contents
  {
    var tag := TagWithUse(useLine);
    assert tag[1..] == "?php\n\n" + useLine + "\n";
    assert tag[..|OpenTag|] == OpenTag;
    ReplaceAllUndo(contents, OpenTag, tag);
  }

  /** The `use` line of a controller whose name starts with no digit and
      holds no backslash or dollar sign goes into the replacement free of
      back-references and escapes, so `preg_replace` inserts it as written. */
  lemma UseLineIsLiteral(controller: string)
    requires |controller| > 0 && !IsDigit(controller[0])
    requires '\\' !in controller && '$' !in controller
    ensures IsLiteralReplacement(TagWithUse(UseStatement(controller)))
  {
    var p := UsePrefix;
    UseTagShape(controller);
    UsePrefixIsLiteral();
    PlainIsLiteral(controller);
    PlainIsLiteral(";\n");
    LiteralJoin(p, controller);
    LiteralJoin(p + controller, ";\n");
  }

  /** The replacement text in front of the controller's name. */
  const UsePrefix := "<?php\n\nuse App\\Http\\Controllers\\"

  /** The inserted block is the fixed prefix, the controller's name and
      the end of the line. */
  lemma UseTagShape(controller: string)
    ensures TagWithUse(UseStatement(controller)) == UsePrefix + controller + ";\n"
  {
  }

  /** The prefix cut at its backslashes. */
  lemma UsePrefixSplit()
    ensures UsePrefix == "<?php\n\nuse App" + "\\" + "Http" + "\\" + "Controllers" + "\\"
  {
  }

  /** The pieces between the backslashes are literal. */
  lemma UsePrefixPieces()
    ensures IsLiteralReplacement("<?php\n\nuse App") && IsLiteralReplacement("\\")
    ensures IsLiteralReplacement("Http") && IsLiteralReplacement("Controllers")
  {
    PlainIsLiteral("<?php\n\nuse App");
    PlainIsLiteral("Http");
    PlainIsLiteral("Controllers");
  }

  /** Each backslash of the prefix is followed by a letter. */
  lemma UsePrefixIsLiteral()
    ensures IsLiteralReplacement(UsePrefix) && UsePrefix[|UsePrefix| - 1] == '\\'
  {
    var a := "<?php\n\nuse App";
    var bs := "\\";
    UsePrefixSplit();
    UsePrefixPieces();
    LiteralJoin(a, bs);
    LiteralJoin(a + bs, "Http");
    LiteralJoin(a + bs + "Http", bs);
    LiteralJoin(a + bs + "Http" + bs, "Controllers");
    LiteralJoin(a + bs + "Http" + bs + "Controllers", bs);
  }

  /** The corrected patch is idempotent. */
  lemma PatchRouteFirstIdempotent(contents: string, useLine: string, routeLine: string)
    requires |routeLine| > 0 && routeLine[0] !in OpenTag && '<' !in routeLine
    ensures var once := PatchRouteFirst(contents, useLine, routeLine);
            PatchRouteFirst(once, useLine, routeLine) == once
  {
  }

  /** For a model name without `<`, the corrected patch's requirements hold. */
  lemma RouteDefinitionFitsRouteFirst(routeName: string, controller: string)
    requires '<' !in routeName && '<' !in controller
    ensures var routeLine := RouteDefinition(routeName, controller);
            |routeLine| > 0 && routeLine[0] !in OpenTag && '<' !in routeLine
  {
    var routeLine := RouteDefinition(routeName, controller);
    assert routeLine[0] == 'R';
  }
}

=== FILE: smart_factory.dfy ===
/**
 The model factory of the smart scaffolding command (`generateFactory`,
 `getFactoryFieldDefinition`): one fake-data entry per non-reserved clause
 in specification order, then `created_at` and `updated_at` set to
 `now()`.
 */
module SmartScaffoldFactory {
  import opened Strings
  import opened FieldSpec

  /** The fake-value generators a factory entry can use. */
  datatype Fake =
    | RandomNumber
    | RandomFloat
    | RandomBoolean
    | RandomDateTime
    | RandomText
    | JsonPlaceholder
    | RandomWord
    | RelatedFactory(model: string)
    | Now

  datatype FactoryEntry = FactoryEntry(name: string, fake: Fake)

  /** The expression each generator stands for in the generated factory. */
  function FakeText(f: Fake): string {
    match f
    case RandomNumber => "$this->faker->randomNumber()"
    case RandomFloat => "$this->faker->randomFloat(2, 0, 1000)"
    case RandomBoolean => "$this->faker->boolean"
    case RandomDateTime => "$this->faker->dateTime"
    case RandomText => "$this->faker->text"
    case JsonPlaceholder => "json_encode(['key' => 'value'])"
    case RandomWord => "$this->faker->word"
    case RelatedFactory(m) => "\\App\\Models\\" + m + "::factory()"
    case Now => "now()"
  }

  /** `'name' => expression,` */
  function EntryLine(e: FactoryEntry): string {
    "'" + e.name + "' => " + FakeText(e.fake) + ","
  }

  /** Types with an entry in the generator table. */
  predicate HasFakeEntry(fieldType: string) {
    fieldType in {"integer", "bigInteger", "float", "double", "decimal", "boolean",
                  "date", "dateTime", "text", "longText", "json"}
  }

  /** The generator table of `getFactoryFieldDefinition`; a word for any
      other type. */
  function FakeFor(fieldType: string): (f: Fake)
    ensures !f.RelatedFactory? && f != Now
    ensures !HasFakeEntry(fieldType) <==> f == RandomWord
  {
    match fieldType
    case "integer" => RandomNumber
    case "bigInteger" => RandomNumber
    case "float" => RandomFloat
    case "double" => RandomFloat
    case "decimal" => RandomFloat
    case "boolean" => RandomBoolean
    case "date" => RandomDateTime
    case "dateTime" => RandomDateTime
    case "text" => RandomText
    case "longText" => RandomText
    case "json" => JsonPlaceholder
    case _ => RandomWord
  }

  /** `getFactoryFieldDefinition($name, $type)`. */
  function FactoryFieldDefinition(name: string, fieldType: string): string {
    EntryLine(FactoryEntry(name, FakeFor(fieldType)))
  }

  /** The entry of one clause: a foreign key defers to the factory of the
      related model, `Studly(singular(table))` with the table trimmed from
      part 2 (default `users`); any other type uses the generator table. */
  function ClauseEntry(inf: Inflector, clause: string): (e: FactoryEntry)
    ensures e.name == ClauseName(clause) && e.fake != Now
    ensures ClauseType(clause) == "foreign"
            ==> e.fake == RelatedFactory(inf.studly(inf.singular(Trim(PartOr(Parts(clause), 2, "users")))))
    ensures ClauseType(clause) != "foreign" ==> e.fake == FakeFor(ClauseType(clause))
  {
    if ClauseType(clause) == "foreign" then
      var table := Trim(PartOr(Parts(clause), 2, "users"));
      FactoryEntry(ClauseName(clause), RelatedFactory(inf.studly(inf.singular(table))))
    else
      FactoryEntry(ClauseName(clause), FakeFor(ClauseType(clause)))
  }

  /** The entries for the fields, skipping reserved names. */
  function FieldEntries(inf: Inflector, clauses: seq<string>): (es: seq<FactoryEntry>)
    ensures |es| == |Kept(clauses)|
    ensures forall i :: 0 <= i < |es| ==> es[i] == ClauseEntry(inf, Kept(clauses)[i])
  {
    EmitKept(c => ClauseEntry(inf, c), clauses)
  }

  lemma FieldEntriesNotReserved(inf: Inflector, clauses: seq<string>)
    ensures forall i :: 0 <= i < |FieldEntries(inf, clauses)| ==>
              !IsReserved(FieldEntries(inf, clauses)[i].name) && FieldEntries(inf, clauses)[i].fake != Now
  {
    var es := FieldEntries(inf, clauses);
    var k := Kept(clauses);
    forall i | 0 <= i < |es|
      ensures !IsReserved(es[i].name) && es[i].fake != Now
    {
      assert es[i] == ClauseEntry(inf, k[i]);
      KeptNotReserved(clauses, i);
    }
  }

  /** The two timestamps every factory ends with. */
  const Timestamps := [FactoryEntry("created_at", Now), FactoryEntry("updated_at", Now)]

  /** All entries of the factory: the field entries, then the two
      timestamps. */
  function FactoryEntries(inf: Inflector, fields: string): (es: seq<FactoryEntry>)
    ensures |es| == |Kept(Clauses(fields))| + 2
    ensures es[..|es| - 2] == FieldEntries(inf, Clauses(fields))
    ensures es[|es| - 2] == FactoryEntry("created_at", Now)
    ensures es[|es| - 1] == FactoryEntry("updated_at", Now)
    ensures forall i :: 0 <= i < |es| - 2 ==> !IsReserved(es[i].name) && es[i].fake != Now
  {
    var es := FieldEntries(inf, Clauses(fields));
    FieldEntriesNotReserved(inf, Clauses(fields));
    AppendTimestamps(es)
  }

  /** The field entries followed by the timestamps. */
  function AppendTimestamps(es: seq<FactoryEntry>): (r: seq<FactoryEntry>)
    ensures |r| == |es| + 2 && r[..|es|] == es
    ensures r[|es|] == FactoryEntry("created_at", Now) && r[|es| + 1] == FactoryEntry("updated_at", Now)
  {
    var r := es + Timestamps;
    assert r[..|es|] == es;
    r
  }

  /** The lines substituted for `{{ fields }}`: one rendered line per entry,
      the last two `'created_at' => now(),` and `'updated_at' => now(),`. */
  function FactoryLines(inf: Inflector, fields: string): (lines: seq<string>)
    ensures |lines| == |Kept(Clauses(fields))| + 2
    ensures forall i :: 0 <= i < |lines| ==> lines[i] == EntryLine(FactoryEntries(inf, fields)[i])
    ensures lines[|lines| - 2] == "'created_at' => now(),"
    ensures lines[|lines| - 1] == "'updated_at' => now(),"
  {
    var es := FactoryEntries(inf, fields);
    var lines := seq(|es|, i requires 0 <= i < |es| => EntryLine(es[i]));
    TimestampLines();
    lines
  }

  /** The text of the two timestamp lines. */
  lemma TimestampLines()
    ensures EntryLine(FactoryEntry("created_at", Now)) == "'created_at' => now(),"
    ensures EntryLine(FactoryEntry("updated_at", Now)) == "'updated_at' => now(),"
  {
    NowLine("created_at");
    NowLine("updated_at");
  }

  /** A timestamp entry renders as `'name' => now(),`. */
  lemma NowLine(name: string)
    ensures EntryLine(FactoryEntry(name, Now)) == "'" + name + "' => now(),"
  {
  }

  /** `created_at` is named exactly once, by the appended timestamp, however
      the specification declares it. */
  lemma CreatedAtOnce(inf: Inflector, fields: string, i: nat)
    requires i < |FactoryEntries(inf, fields)|
    ensures FactoryEntries(inf, fields)[i].name == "created_at"
            <==> i == |FactoryEntries(inf, fields)| - 2
  {
  }

  /** A foreign key refers to the factory of the related model. */
  lemma ForeignEntry(inf: Inflector, fields: string, i: nat)
    requires i < |Kept(Clauses(fields))|
    requires ClauseType(Kept(Clauses(fields))[i]) == "foreign"
    ensures var c := Kept(Clauses(fields))[i];
            FactoryEntries(inf, fields)[i].fake
              == RelatedFactory(inf.studly(inf.singular(Trim(PartOr(Parts(c), 2, "users")))))
  {
  }

  /** `bio:text` gets a text generator, an unknown type a word. */
  lemma TextAndDefault(name: string)
    ensures FactoryFieldDefinition(name, "text") == "'" + name + "' => $this->faker->text,"
    ensures FactoryFieldDefinition(name, "string") == "'" + name + "' => $this->faker->word,"
  {
  }
}

=== FILE: smart_filters.dfy ===
/**
 The query filter of the smart scaffolding command (`generateModelFilter`,
 `generateFilterMethod`): one method per non-reserved clause, named
 `camel(name)`, whose body depends on the clause's column type as written
 — this emitter does not trim part 1.

 Each case of the `switch` is one `Plan`: whether the body opens with the
 comma-range branch, and which builder call it returns otherwise. The
 method text renders the plan and the query a generated method builds for
 a request value runs the same plan, so the range-versus-exact behaviour
 stated about the queries is the behaviour of the emitted text.
 */
module SmartScaffoldFilters {
  import opened Strings
  import opened Wrappers
  import opened FieldSpec

  /** The five method bodies `generateFilterMethod` can emit. */
  datatype FilterKind = LikeMatch | NumericRange | DateRange | BooleanMatch | ExactMatch

  /** The `switch` of `generateFilterMethod`, on the untrimmed type. */
  function FilterKindOf(fieldType: string): (k: FilterKind)
    ensures k == LikeMatch <==> fieldType == "string" || fieldType == "text"
    ensures k == NumericRange <==> fieldType in {"integer", "bigInteger", "float", "decimal"}
    ensures k == DateRange <==> fieldType == "date" || fieldType == "datetime"
    ensures k == BooleanMatch <==> fieldType == "boolean"
  {
    match fieldType
    case "string" => LikeMatch
    case "text" => LikeMatch
    case "integer" => NumericRange
    case "bigInteger" => NumericRange
    case "float" => NumericRange
    case "decimal" => NumericRange
    case "date" => DateRange
    case "datetime" => DateRange
    case "boolean" => BooleanMatch
    case _ => ExactMatch
  }

  /** One generated filter method. */
  datatype FilterMethod = FilterMethod(methodName: string, column: string, kind: FilterKind)

  /** What a generated method's second builder argument is: the request
      value, the `LIKE` operator with the value wrapped in `%`, or the
      value read as a boolean. */
  datatype Operand = ValueOperand | LikeOperand | BooleanOperand

  function OperandText(a: Operand): string {
    match a
    case ValueOperand => "$value"
    case LikeOperand => "'LIKE', \"%{$value}%\""
    case BooleanOperand => "$boolValue"
  }

  /** One case of the `switch`: the variable the comma-separated pieces are
      exploded into, if the body opens with the range branch; the lines
      before it; and the builder method and operand of the closing
      `return`. */
  datatype Plan = Plan(rangeVar: Option<string>, prelude: string, op: string, operand: Operand)

  /** The `switch` of `generateFilterMethod`, one plan per kind. */
  function PlanOf(kind: FilterKind): Plan {
    match kind
    case LikeMatch => Plan(None, "", "where", LikeOperand)
    case NumericRange => Plan(Some("$values"), "", "where", ValueOperand)
    case DateRange => Plan(Some("$dates"), "", "whereDate", ValueOperand)
    case BooleanMatch =>
      Plan(None, "    $boolValue = filter_var($value, FILTER_VALIDATE_BOOLEAN);\n", "where", BooleanOperand)
    case ExactMatch => Plan(None, "", "where", ValueOperand)
  }

  /** The range branch: with a comma, the pieces go to `whereBetween`. */
  function RangeBlock(v: string, column: string): string {
    "    if (str_contains($value, ',')) {\n"
    + "        " + v + " = explode(',', $value);\n"
    + "        return $this->builder->whereBetween('" + column + "', " + v + ");\n"
    + "    }\n"
  }

  /** The closing `return $this->builder->op('column', operand);`. */
  function ReturnLine(op: string, column: string, operand: Operand): string {
    "    return $this->builder->" + op + "('" + column + "', " + OperandText(operand) + ");\n"
  }

  /** The body lines of a generated method: the plan of its kind, rendered. */
  function MethodBody(kind: FilterKind, column: string): (body: string)
    ensures var p := PlanOf(kind);
            EndsWith(body, ReturnLine(p.op, column, p.operand))
  {
    var p := PlanOf(kind);
    var range := match p.rangeVar case Some(v) => RangeBlock(v, column) case None => "";
    var body := p.prelude + range + ReturnLine(p.op, column, p.operand);
    assert body == (p.prelude + range) + ReturnLine(p.op, column, p.operand);
    body
  }

  /** The text of a generated method. */
  function RenderFilterMethod(m: FilterMethod): string {
    "public function " + m.methodName + "($value)\n{\n" + MethodBody(m.kind, m.column) + "}"
  }

  /** `generateFilterMethod($fieldName, $fieldType)`. */
  function GenerateFilterMethod(inf: Inflector, fieldName: string, fieldType: string): (m: FilterMethod)
    ensures m.methodName == inf.camel(fieldName) && m.column == fieldName
    ensures m.kind == FilterKindOf(fieldType)
  {
    FilterMethod(inf.camel(fieldName), fieldName, FilterKindOf(fieldType))
  }

  /** The method of one clause: trimmed name, raw part 1 as the type. */
  function ClauseFilter(inf: Inflector, clause: string): FilterMethod {
    GenerateFilterMethod(inf, ClauseName(clause), PartOr(Parts(clause), 1, "string"))
  }

  /** The methods of the filter: one per non-reserved clause, in order. */
  function FilterMethods(inf: Inflector, fields: string): (ms: seq<FilterMethod>)
    ensures |ms| == |Kept(Clauses(fields))|
    ensures forall i :: 0 <= i < |ms| ==> ms[i] == ClauseFilter(inf, Kept(Clauses(fields))[i])
  {
    EmitKept(c => ClauseFilter(inf, c), Clauses(fields))
  }

  /** The text substituted for `{{ methods }}`. */
  function GenerateModelFilter(inf: Inflector, fields: string): string {
    var ms := FilterMethods(inf, fields);
    Join(seq(|ms|, i requires 0 <= i < |ms| => RenderFilterMethod(ms[i])), "\n\n    ")
  }

  /** No filter method is generated for a reserved column. */
  lemma NoReservedFilter(inf: Inflector, fields: string, i: nat)
    requires i < |FilterMethods(inf, fields)|
    ensures !IsReserved(FilterMethods(inf, fields)[i].column)
  {
    KeptNotReserved(Clauses(fields), i);
  }

  /** A type written with surrounding whitespace is never recognised,
      because this emitter compares the type untrimmed. */
  lemma PaddedTypeIsExact(fieldType: string)
    requires !IsTrimmed(fieldType)
    ensures FilterKindOf(fieldType) == ExactMatch
  {
  }

  /** `double` and the camel-case `dateTime` fall through to equality,
      although the request rules treat them as numeric and date. */
  lemma DoubleAndDateTimeAreExact()
    ensures FilterKindOf("double") == ExactMatch
    ensures FilterKindOf("dateTime") == ExactMatch
  {
  }

  /** What a generated method asks of the query builder for a request
      value: the range over the comma-separated pieces, or one call
      `op(column, operand)`. The boolean operand keeps the raw value. */
  datatype Query =
    | WhereBetween(column: string, bounds: seq<string>)
    | BuilderCall(op: string, column: string, operand: Operand, value: string)

  /** Runs a generated method on a request value: the range branch when the
      plan has one and the value holds a comma, the closing `return`
      otherwise. The `%` wrapping of a LIKE operand is applied to the value. */
  function RunPlan(p: Plan, column: string, value: string): Query {
    if p.rangeVar.Some? && ',' in value then WhereBetween(column, Split(value, ','))
    else
      var v := if p.operand == LikeOperand then "%" + value + "%" else value;
      BuilderCall(p.op, column, p.operand, v)
  }

  /** The query the generated method of `kind` builds for a request value. */
  function FilterQuery(kind: FilterKind, column: string, value: string): (q: Query)
    ensures q.column == column
    ensures (kind == NumericRange || kind == DateRange) && ',' in value ==>
              q == WhereBetween(column, Split(value, ','))
    ensures kind == NumericRange && ',' !in value ==> q == BuilderCall("where", column, ValueOperand, value)
    ensures kind == DateRange && ',' !in value ==> q == BuilderCall("whereDate", column, ValueOperand, value)
    ensures kind == LikeMatch ==> q == BuilderCall("where", column, LikeOperand, "%" + value + "%")
    ensures kind == BooleanMatch ==> q == BuilderCall("where", column, BooleanOperand, value)
    ensures kind == ExactMatch ==> q == BuilderCall("where", column, ValueOperand, value)
  {
    RunPlan(PlanOf(kind), column, value)
  }

  /** The call a generated method ends with is the one its query makes
      without the range branch. */
  lemma QueryMatchesBody(kind: FilterKind, column: string, value: string)
    requires ',' !in value || PlanOf(kind).rangeVar.None?
    ensures var q := FilterQuery(kind, column, value);
            && q.BuilderCall?
            && EndsWith(MethodBody(kind, column), ReturnLine(q.op, column, q.operand))
  {
  }

  /** A range filter gets at least two bounds, and joining them with commas
      gives the request value back. */
  lemma RangeBounds(kind: FilterKind, column: string, value: string)
    requires kind == NumericRange || kind == DateRange
    requires ',' in value
    ensures FilterQuery(kind, column, value).WhereBetween?
    ensures |FilterQuery(kind, column, value).bounds| >= 2
    ensures Join(FilterQuery(kind, column, value).bounds, ",") == value
  {
    SplitPieces(value, ',');
    JoinSplit(value, ',');
  }

  /** An `age:integer` filter: `18,30` is the range from 18 to 30, `18`
      the exact value. */
  lemma IntegerAgeFilter()
    ensures FilterQuery(FilterKindOf("integer"), "age", "18,30") == WhereBetween("age", ["18", "30"])
    ensures FilterQuery(FilterKindOf("integer"), "age", "18") == BuilderCall("where", "age", ValueOperand, "18")
  {
    assert "18,30" == "18" + [','] + "30";
    SplitAfterPiece("18", ',', "30");
    SplitWithoutSeparator("30", ',');
    assert "18"[0] != ',' && "18"[1] != ',';
  }
}

=== FILE: smart_requests.dfy ===
/**
 The Store and Update form requests of the smart scaffolding command
 (`generateRequestFiles`, `generateRequestFile`, `getValidationRules`):
 for every non-reserved clause one `'name' => [...]` rule line and one
 message per rule. Every field is `required` in both requests.
 */
module SmartScaffoldRequests {
  import opened Strings
  import opened Wrappers
  import opened FieldSpec

  /** The referenced table and column of a foreign key. */
  datatype ForeignRef = ForeignRef(table: string, column: string)

  /** Types with an entry in the rule table; everything else gets the
      default `string, max:255`. */
  predicate HasRuleEntry(fieldType: string) {
    fieldType in {"integer", "bigInteger", "float", "double", "decimal", "boolean",
                  "date", "dateTime", "email", "text", "longText", "json"}
  }

  /** The rules after `required` for a type, from the fixed table. */
  function TypeRules(fieldType: string): (tail: seq<string>)
    ensures 1 <= |tail| <= 2
    ensures tail == ["string", "max:255"] <==> !HasRuleEntry(fieldType)
    ensures fieldType in {"text", "longText"} ==> tail == ["string"]
  {
    match fieldType
    case "integer" => ["integer"]
    case "bigInteger" => ["integer"]
    case "float" => ["numeric"]
    case "double" => ["numeric"]
    case "decimal" => ["numeric"]
    case "boolean" => ["boolean"]
    case "date" => ["date"]
    case "dateTime" => ["date"]
    case "email" => ["email", "max:255"]
    case "text" => ["string"]
    case "longText" => ["string"]
    case "json" => ["json"]
    case _ => ["string", "max:255"]
  }

  /** `getValidationRules`: `required`, then either the existence check of
      a foreign key or the type's rules. */
  function ValidationRules(fieldType: string, foreign: Option<ForeignRef>): (rules: seq<string>)
    ensures 2 <= |rules| <= 3
    ensures rules[0] == "required"
    ensures fieldType == "foreign" && foreign.Some? ==>
              rules == ["required", "exists:" + foreign.value.table + "," + foreign.value.column]
    ensures !(fieldType == "foreign" && foreign.Some?) ==> rules[1..] == TypeRules(fieldType)
  {
    if fieldType == "foreign" && foreign.Some? then
      ["required", "exists:" + foreign.value.table + "," + foreign.value.column]
    else
      ["required"] + TypeRules(fieldType)
  }

  /** The foreign reference a request reads from a clause: trimmed parts 2
      and 3, defaulting to `users` and `id`; only a `foreign` type has one. */
  function RequestForeign(clause: string): Option<ForeignRef> {
    var parts := Parts(clause);
    if ClauseType(clause) == "foreign" then
      Some(ForeignRef(Trim(PartOr(parts, 2, "users")), Trim(PartOr(parts, 3, "id"))))
    else None
  }

  /** The rules of one clause. */
  function ClauseRules(clause: string): seq<string> {
    ValidationRules(ClauseType(clause), RequestForeign(clause))
  }

  /** A field of the request together with its rules. */
  datatype RequestEntry = RequestEntry(name: string, rules: seq<string>)

  /** The entry of one clause. */
  function EntryOf(clause: string): RequestEntry {
    RequestEntry(ClauseName(clause), ClauseRules(clause))
  }

  /** The entries of the request: one per clause whose name is not
      reserved, in specification order. */
  function RequestEntries(clauses: seq<string>): (es: seq<RequestEntry>)
    ensures |es| == |Kept(clauses)|
    ensures forall i :: 0 <= i < |es| ==> es[i] == EntryOf(Kept(clauses)[i])
  {
    EmitKept(EntryOf, clauses)
  }

  /** `'name' => ['rule1', 'rule2'],` */
  function RuleLine(e: RequestEntry): string {
    "'" + e.name + "' => ['" + Join(e.rules, "', '") + "'],"
  }

  /** `'name.rule' => 'The name field must be valid.',` */
  function MessageLine(name: string, rule: string): string {
    "'" + name + "." + rule + "' => 'The " + name + " field must be valid.',"
  }

  /** The messages of one field: one per rule, in rule order. */
  function EntryMessages(name: string, rules: seq<string>): (ms: seq<string>)
    ensures |ms| == |rules|
    ensures forall k :: 0 <= k < |rules| ==> ms[k] == MessageLine(name, rules[k])
    decreases |rules|
  {
    if |rules| == 0 then [] else [MessageLine(name, rules[0])] + EntryMessages(name, rules[1..])
  }

  /** The total number of rules over all entries. */
  function RuleCount(es: seq<RequestEntry>): nat
    decreases |es|
  {
    if |es| == 0 then 0 else |es[0].rules| + RuleCount(es[1..])
  }

  function RuleLines(es: seq<RequestEntry>): (lines: seq<string>)
    ensures |lines| == |es|
    ensures forall i :: 0 <= i < |es| ==> lines[i] == RuleLine(es[i])
    decreases |es|
  {
    if |es| == 0 then [] else [RuleLine(es[0])] + RuleLines(es[1..])
  }

  /** All messages: the messages of each entry, entries in order. */
  function MessageLines(es: seq<RequestEntry>): (lines: seq<string>)
    ensures |lines| == RuleCount(es)
    ensures |es| > 0 ==> lines[..|es[0].rules|] == EntryMessages(es[0].name, es[0].rules)
    decreases |es|
  {
    if |es| == 0 then []
    else EntryMessages(es[0].name, es[0].rules) + MessageLines(es[1..])
  }

  datatype RequestKind = Store | Update

  function KindName(kind: RequestKind): string {
    match kind
    case Store => "Store"
    case Update => "Update"
  }

  /** What `generateRequestFile` writes: the file under the application
      directory, the stub it reads, and what it substitutes for
      `{{ model }}`, `{{ rules }}` and `{{ messages }}`. */
  datatype RequestFile = RequestFile(path: string, stubName: string, model: string, rules: seq<string>, messages: seq<string>)

  /** The request directory, relative to the application directory. */
  const RequestDir := "Http/Requests/"


  /** `generateRequestFile` for one kind of request. */
  function GenerateRequestFile(modelName: string, kind: RequestKind, fields: string): (f: RequestFile)
    ensures |f.rules| == |Kept(Clauses(fields))|
    ensures |f.messages| == RuleCount(RequestEntries(Clauses(fields)))
    ensures f.path == RequestDir + KindName(kind) + modelName + "Request.php"
    ensures f.model == modelName
    ensures f.stubName == (if kind == Store then "store-request.stub" else "update-request.stub")
    ensures f.rules == RuleLines(RequestEntries(Clauses(fields)))
    ensures f.messages == MessageLines(RequestEntries(Clauses(fields)))
  {
    var es := RequestEntries(Clauses(fields));
    var stub := match kind case Store => "store-request.stub" case Update => "update-request.stub";
    RequestFile(RequestDir + KindName(kind) + modelName + "Request.php", stub, modelName, RuleLines(es), MessageLines(es))
  }

  /** `generateRequestFiles`: the Store and the Update request get the same
      model, rules and messages; only their files and stubs differ. */
  function GenerateRequestFiles(modelName: string, fields: string): (r: (RequestFile, RequestFile))
    ensures r.0.rules == r.1.rules && r.0.messages == r.1.messages
    ensures r.0.model == r.1.model
    ensures r.0.path != r.1.path && r.0.stubName != r.1.stubName
  {
    PathsDiffer(modelName);
    (GenerateRequestFile(modelName, Store, fields), GenerateRequestFile(modelName, Update, fields))
  }

  /** The two requests of a model are written to different files. */
  lemma PathsDiffer(modelName: string)
    ensures RequestDir + "Store" + modelName + "Request.php" != RequestDir + "Update" + modelName + "Request.php"
  {
    var store, update := RequestDir + "Store" + modelName + "Request.php", RequestDir + "Update" + modelName + "Request.php";
    assert store[|RequestDir|] == 'S' && update[|RequestDir|] == 'U';
  }

  /** Every rule list starts with `required`; a foreign key gets exactly the
      existence check against its table and column. */
  lemma EntryRules(clauses: seq<string>, i: nat)
    requires i < |RequestEntries(clauses)|
    ensures RequestEntries(clauses)[i].rules[0] == "required"
    ensures var c := Kept(clauses)[i];
            var parts := Parts(c);
            ClauseType(c) == "foreign" ==>
              RequestEntries(clauses)[i].rules
                == ["required", "exists:" + Trim(PartOr(parts, 2, "users")) + "," + Trim(PartOr(parts, 3, "id"))]
  {
  }

  /** A reserved name never reaches the request. */
  lemma NoReservedEntry(clauses: seq<string>, i: nat)
    requires i < |RequestEntries(clauses)|
    ensures !IsReserved(RequestEntries(clauses)[i].name)
  {
    KeptNotReserved(clauses, i);
  }

  /** The messages are the per-field messages concatenated in field order,
      so the whole list has one message per rule. */
  lemma {:induction false} MessageLinesAppend(a: seq<RequestEntry>, b: seq<RequestEntry>)
    ensures MessageLines(a + b) == MessageLines(a) + MessageLines(b)
    ensures RuleCount(a + b) == RuleCount(a) + RuleCount(b)
    decreases |a|
  {
    if |a| == 0 {
      assert a + b == b;
    } else {
      assert (a + b)[1..] == a[1..] + b;
      MessageLinesAppend(a[1..], b);
    }
  }
}

=== FILE: smart_resource.dfy ===
/**
 The API resource of the smart scaffolding command (`generateResourceFile`):
 `'id' => $this->id,` first, then one `'name' => $this->name,` per
 non-reserved clause in specification order.
 */
module SmartScaffoldResource {
  import opened FieldSpec

  /** `'name' => $this->name,` */
  function ResourceLine(name: string): string {
    "'" + name + "' => $this->" + name + ","
  }

  /** The names of the fields the resource exposes: one per kept clause,
      in specification order. */
  function FieldNames(fields: string): (names: seq<string>)
    ensures |names| == |Kept(Clauses(fields))|
    ensures forall i :: 0 <= i < |names| ==> names[i] == ClauseName(Kept(Clauses(fields))[i])
  {
    var k := Kept(Clauses(fields));
    seq(|k|, i requires 0 <= i < |k| => ClauseName(k[i]))
  }

  /** The attribute names the resource exposes: `id`, then the fields. */
  function ResourceNames(fields: string): (names: seq<string>)
    ensures |names| == 1 + |Kept(Clauses(fields))|
    ensures names[0] == "id" && names[1..] == FieldNames(fields)
  {
    ["id"] + FieldNames(fields)
  }

  /** The lines substituted for `{{ fields }}`. */
  function ResourceFields(fields: string): (lines: seq<string>)
    ensures |lines| == 1 + |Kept(Clauses(fields))|
    ensures forall i :: 0 <= i < |lines| ==> lines[i] == ResourceLine(ResourceNames(fields)[i])
  {
    var names := ResourceNames(fields);
    seq(|names|, i requires 0 <= i < |names| => ResourceLine(names[i]))
  }

  /** `id` is exposed once, first, whether or not the specification names it. */
  lemma IdOnlyFirst(fields: string, i: nat)
    requires i < |ResourceNames(fields)|
    ensures ResourceNames(fields)[i] == "id" <==> i == 0
  {
    if i > 0 {
      var names := ResourceNames(fields);
      assert names[i] == FieldNames(fields)[i - 1];
      KeptNotReserved(Clauses(fields), i - 1);
    }
  }
}

=== FILE: smart_schema.dfy ===
/**
 The migration body of the smart scaffolding command (`buildSchemaContent`
 of `SmartScaffoldCommand`): `$table->id();`, then the statements of every
 clause in specification order, then `$table->timestamps();` and
 `$table->softDeletes();`.

 This command reads every part of a clause trimmed, skips a field named
 exactly `id`, treats `foreign` as a column type taking the referenced
 table and column from parts 2 and 3, and gives every other type one
 column statement with its recognised modifiers chained on in order.
 */
module SmartScaffold {
  import opened Strings
  import opened FieldSpec
  import opened Blueprint

  /** The clause as this command reads it: every part trimmed. */
  function SchemaParts(clause: string): (parts: seq<string>)
    ensures |parts| >= 1
  {
    TrimAll(Parts(clause))
  }

  function SchemaName(clause: string): string {
    SchemaParts(clause)[0]
  }

  function SchemaType(clause: string): string {
    PartOr(SchemaParts(clause), 1, "string")
  }

  /** How many statements a clause contributes: none for `id`, two for a
      foreign key, one otherwise. */
  function ClauseWeight(clause: string): nat {
    if SchemaName(clause) == "id" then 0
    else if SchemaType(clause) == "foreign" then 2
    else 1
  }

  function SchemaWeight(clauses: seq<string>): nat
    decreases |clauses|
  {
    if |clauses| == 0 then 0 else ClauseWeight(clauses[0]) + SchemaWeight(clauses[1..])
  }

  /** The two statements of a foreign key: the unsigned column, then the
      constraint referencing `column` on `table` with its deletion policy. */
  function ForeignStatements(name: string, table: string, column: string, ms: seq<string>): seq<Statement> {
    [ Column("unsignedBigInteger", name),
      Statement([Call("foreign", [name]), Call("references", [column]), Call("on", [table])] + OnDeleteCalls(ms)) ]
  }

  /** The statements one clause contributes. */
  function ClauseStatements(clause: string): (sts: seq<Statement>)
    ensures |sts| == ClauseWeight(clause)
  {
    var parts := SchemaParts(clause);
    var name := parts[0];
    var fieldType := PartOr(parts, 1, "string");
    var ms := Modifiers(parts);
    if name == "id" then []
    else if fieldType == "foreign" then
      ForeignStatements(name, PartOr(parts, 2, "users"), PartOr(parts, 3, "id"), ms)
    else
      [Statement([Call(fieldType, [name])] + ModifierCalls(ms))]
  }

  /** The statements of all clauses, in specification order. */
  function FieldStatements(clauses: seq<string>): (sts: seq<Statement>)
    ensures |sts| == SchemaWeight(clauses)
    ensures |clauses| > 0 ==> sts[..ClauseWeight(clauses[0])] == ClauseStatements(clauses[0])
    decreases |clauses|
  {
    if |clauses| == 0 then []
    else ClauseStatements(clauses[0]) + FieldStatements(clauses[1..])
  }

  /** The whole migration body as statements. */
  function SchemaStatements(fields: string): (sts: seq<Statement>)
    ensures |sts| == 3 + SchemaWeight(Clauses(fields))
    ensures sts[0] == IdStatement
    ensures sts[|sts| - 2] == TimestampsStatement
    ensures sts[|sts| - 1] == SoftDeletesStatement
    ensures sts[1..|sts| - 2] == FieldStatements(Clauses(fields))
  {
    var columns := FieldStatements(Clauses(fields));
    var sts := Body(columns);
    assert sts[1..|sts| - 2] == columns;
    sts
  }

  /** The text substituted for `{{ schema }}`: one statement per line. */
  function BuildSchemaContent(fields: string): string {
    Join(RenderAll(SchemaStatements(fields)), LineBreak)
  }

  /** The text opens with `$table->id();` and closes with
      `$table->timestamps();` and then `$table->softDeletes();`. */
  lemma SchemaText(fields: string)
    ensures StartsWith(BuildSchemaContent(fields), "$table->id();" + LineBreak)
    ensures EndsWith(BuildSchemaContent(fields), "$table->timestamps();" + LineBreak + "$table->softDeletes();")
  {
    BodyText(FieldStatements(Clauses(fields)), LineBreak);
  }

  /** Only a field named exactly `id` is skipped; `created_at` and the other
      reserved names are emitted like any column. */
  lemma SkipsOnlyId(clause: string)
    ensures ClauseStatements(clause) == [] <==> SchemaName(clause) == "id"
  {
  }

  /** Statements follow the order of the clauses. */
  lemma {:induction false} FieldStatementsAppend(a: seq<string>, b: seq<string>)
    ensures FieldStatements(a + b) == FieldStatements(a) + FieldStatements(b)
    decreases |a|
  {
    if |a| == 0 {
      assert a + b == b;
    } else {
      assert (a + b)[1..] == a[1..] + b;
      FieldStatementsAppend(a[1..], b);
    }
  }

  /** Clause `i` contributes its own statements, at the offset the clauses
      before it take up. */
  lemma FieldStatementsAt(clauses: seq<string>, i: nat)
    requires i < |clauses|
    ensures SchemaWeight(clauses[..i]) + ClauseWeight(clauses[i]) <= SchemaWeight(clauses)
    ensures FieldStatements(clauses)[SchemaWeight(clauses[..i])..][..ClauseWeight(clauses[i])] == ClauseStatements(clauses[i])
  {
    var front, back := clauses[..i], clauses[i..];
    assert clauses == front + back;
    FieldStatementsAppend(front, back);
    assert back[0] == clauses[i];
    var all, fs, bs, cs := FieldStatements(clauses), FieldStatements(front), FieldStatements(back), ClauseStatements(clauses[i]);
    assert |fs| == SchemaWeight(front) && |cs| == ClauseWeight(clauses[i]);
    SliceAfter(all, fs, bs, cs);
  }

  /** A piece of `b` read back from `a + b`, shifted by `|a|`. */
  lemma SliceAfter<T>(s: seq<T>, a: seq<T>, b: seq<T>, c: seq<T>)
    requires s == a + b && |c| <= |b| && b[..|c|] == c
    ensures s[|a|..][..|c|] == c
  {
    assert s[|a|..] == b;
  }

  /** The table a foreign key references: part 2, `users` when absent. */
  function ForeignTable(clause: string): string {
    PartOr(SchemaParts(clause), 2, "users")
  }

  /** The column a foreign key references: part 3, `id` when absent. */
  function ForeignColumn(clause: string): string {
    PartOr(SchemaParts(clause), 3, "id")
  }

  /** A foreign key: an `unsignedBigInteger` column, then
      `foreign(name)->references(column)->on(table)`, with
      `onDelete('cascade')` when `cascade` is a modifier, else
      `onDelete('set null')` when `setNull` is, and nothing more
      otherwise; never a nullable, default, unique or index clause. */
  lemma ForeignClause(clause: string)
    requires SchemaName(clause) != "id" && SchemaType(clause) == "foreign"
    ensures |ClauseStatements(clause)| == 2
    ensures ClauseStatements(clause)[0] == Column("unsignedBigInteger", SchemaName(clause))
    ensures ClauseStatements(clause)[1].calls[..3] ==
      [Call("foreign", [SchemaName(clause)]),
       Call("references", [ForeignColumn(clause)]),
       Call("on", [ForeignTable(clause)])]
    ensures Call("onDelete", ["cascade"]) in ClauseStatements(clause)[1].calls
            <==> "cascade" in Modifiers(SchemaParts(clause))
    ensures Call("onDelete", ["set null"]) in ClauseStatements(clause)[1].calls
            <==> "cascade" !in Modifiers(SchemaParts(clause)) && "setNull" in Modifiers(SchemaParts(clause))
    ensures ClauseStatements(clause)[1].calls[3..] == OnDeleteCalls(Modifiers(SchemaParts(clause)))
    ensures forall i, c :: 0 <= i < 2 && c in ClauseStatements(clause)[i].calls ==> !IsModifierMethod(c.op)
  {
    var parts := SchemaParts(clause);
    assert ClauseStatements(clause)
      == ForeignStatements(SchemaName(clause), ForeignTable(clause), ForeignColumn(clause), Modifiers(parts));
    ForeignStatementsShape(SchemaName(clause), ForeignTable(clause), ForeignColumn(clause), Modifiers(parts));
  }

  lemma ForeignStatementsShape(name: string, table: string, column: string, ms: seq<string>)
    ensures var sts := ForeignStatements(name, table, column, ms);
            && sts[1].calls[..3] == [Call("foreign", [name]), Call("references", [column]), Call("on", [table])]
            && (Call("onDelete", ["cascade"]) in sts[1].calls <==> "cascade" in ms)
            && (Call("onDelete", ["set null"]) in sts[1].calls <==> "cascade" !in ms && "setNull" in ms)
            && sts[1].calls[3..] == OnDeleteCalls(ms)
            && (forall i, c :: 0 <= i < 2 && c in sts[i].calls ==> !IsModifierMethod(c.op))
  {
    var fixed := [Call("foreign", [name]), Call("references", [column]), Call("on", [table])];
    var od := OnDeleteCalls(ms);
    var calls := ForeignStatements(name, table, column, ms)[1].calls;
    assert calls == fixed + od;
    assert forall c :: c in fixed ==> c.op == "foreign" || c.op == "references" || c.op == "on";
    assert forall c :: c in fixed ==> |c.op| != |"onDelete"|;
    assert forall c :: c in calls ==> c in fixed || c in od;
  }

  /** Any other type: one statement `$table->{type}('{name}')` with the type
      passed through verbatim, followed by the clauses of the recognised
      modifiers in the order they were written. */
  lemma PlainClause(clause: string)
    requires SchemaName(clause) != "id" && SchemaType(clause) != "foreign"
    ensures var parts := SchemaParts(clause);
            var sts := ClauseStatements(clause);
            && |sts| == 1
            && sts[0].calls[0] == Call(SchemaType(clause), [SchemaName(clause)])
            && sts[0].calls[1..] == ModifierCalls(Modifiers(parts))
  {
  }

  /** The text substituted for `{{ fields }}` in the controller: one
      `'name' => $request->input('name')` per clause, reserved names
      included. */
  function FieldMappings(fields: string): (r: seq<string>)
    ensures |r| == |Clauses(fields)|
    ensures forall i :: 0 <= i < |r| ==>
      var name := ClauseName(Clauses(fields)[i]);
      r[i] == "'" + name + "' => $request->input('" + name + "')"
  {
    var cs := Clauses(fields);
    seq(|cs|, i requires 0 <= i < |cs| => Mapping(ClauseName(cs[i])))
  }

  /** Unlike the request, factory, resource and filter emitters, the
      mappings skip nothing: a reserved clause still gets a mapping, so a
      specification naming one maps more fields than those emitters emit. */
  lemma MappingsKeepReserved(fields: string, i: nat)
    requires i < |Clauses(fields)| && IsReserved(ClauseName(Clauses(fields)[i]))
    ensures FieldMappings(fields)[i] == Mapping(ClauseName(Clauses(fields)[i]))
    ensures |Kept(Clauses(fields))| < |FieldMappings(fields)|
  {
    KeptDropsReserved(Clauses(fields), i);
  }

  function Mapping(name: string): string {
    "'" + name + "' => $request->input('" + name + "')"
  }

  /** `generateFieldMappings`: the mappings joined for the controller stub. */
  function GenerateFieldMappings(fields: string): string {
    Join(FieldMappings(fields), ",\n                ")
  }
}

=== FILE: strings.dfy ===
/**
 The handful of PHP string primitives the scaffolding commands are built
 from, as pure functions over `seq<char>`: `explode`, `implode`, `trim`,
 `str_starts_with`-style prefix tests, `Str::contains`, and the
 left-to-right, non-overlapping replacement `preg_replace` performs for a
 literal pattern.
 */
module Strings {

  /** The characters PHP's `trim` strips by default: space, tab, line feed,
      carriage return, NUL and vertical tab. */
  predicate IsTrimChar(c: char) {
    c == ' ' || c == '\t' || c == '\n' || c == '\r' || c == '\0' || c == '\U{000B}'
  }

  /** No trim character at either end. */
  predicate IsTrimmed(s: string) {
    |s| == 0 || (!IsTrimChar(s[0]) && !IsTrimChar(s[|s| - 1]))
  }

  /** Strips the maximal prefix of trim characters. */
  function TrimStart(s: string): (r: string)
    ensures |r| <= |s| && r == s[|s| - |r|..]
    ensures |r| > 0 ==> !IsTrimChar(r[0])
    ensures forall i :: 0 <= i < |s| - |r| ==> IsTrimChar(s[i])
    decreases |s|
  {
    if |s| > 0 && IsTrimChar(s[0]) then TrimStart(s[1..]) else s
  }

  /** Strips the maximal suffix of trim characters. */
  function TrimEnd(s: string): (r: string)
    ensures |r| <= |s| && r == s[..|r|]
    ensures |r| > 0 ==> !IsTrimChar(r[|r| - 1])
    ensures forall i :: |r| <= i < |s| ==> IsTrimChar(s[i])
    decreases |s|
  {
    if |s| > 0 && IsTrimChar(s[|s| - 1]) then TrimEnd(s[..|s| - 1]) else s
  }

  /** `s[i..j]` is what remains of `s` once a run of trim characters is
      cut from each end. */
  predicate EdgesStripped(s: string, i: int, j: int) {
    && 0 <= i <= j <= |s|
    && (forall k :: 0 <= k < i ==> IsTrimChar(s[k]))
    && (forall k :: j <= k < |s| ==> IsTrimChar(s[k]))
  }

  /** Stripping both ends leaves a slice with only trim characters around
      it. */
  lemma TrimStripsEdges(s: string, t: string, r: string)
    requires |t| <= |s| && t == s[|s| - |t|..]
    requires |r| <= |t| && r == t[..|r|]
    requires forall k :: 0 <= k < |s| - |t| ==> IsTrimChar(s[k])
    requires forall k :: |r| <= k < |t| ==> IsTrimChar(t[k])
    ensures EdgesStripped(s, |s| - |t|, |s| - |t| + |r|)
    ensures r == s[|s| - |t|..|s| - |t| + |r|]
  {
    var i := |s| - |t|;
    SliceOfSuffix(s, i, |r|);
    forall k | i + |r| <= k < |s|
      ensures IsTrimChar(s[k])
    {
      assert s[k] == t[k - i];
    }
  }

  lemma SliceOfSuffix(s: string, i: nat, n: nat)
    requires i + n <= |s|
    ensures s[i..][..n] == s[i..i + n]
  {
  }

  /** PHP `trim($s)`: the slice of `s` left once every trim character at
      either end is stripped. */
  function Trim(s: string): (r: string)
    ensures IsTrimmed(r)
    ensures |r| <= |s|
    ensures IsTrimmed(s) ==> r == s
  {
    var t := TrimStart(s);
    var r := TrimEnd(t);
    assert |r| > 0 ==> r[0] == t[0];
    r
  }

  /** What `trim` leaves is a slice of its argument with nothing but trim
      characters cut from either end; with `IsTrimmed` of the result this
      pins the result down. */
  lemma TrimSlice(s: string)
    ensures exists i, j :: EdgesStripped(s, i, j) && Trim(s) == s[i..j]
  {
    var t := TrimStart(s);
    var r := TrimEnd(t);
    TrimStripsEdges(s, t, r);
    SliceWitness(s, Trim(s), |s| - |t|, |s| - |t| + |r|);
  }

  lemma SliceWitness(s: string, r: string, i: int, j: int)
    requires EdgesStripped(s, i, j) && r == s[i..j]
    ensures exists i, j :: EdgesStripped(s, i, j) && r == s[i..j]
  {
  }

  /** `trim` applied twice is `trim` applied once. */
  lemma TrimIdempotent(s: string)
    ensures Trim(Trim(s)) == Trim(s)
  {
  }

  /** PHP `explode($sep, $s)` for a one-character separator: the pieces
      between consecutive separators, always at least one. */
  function Split(s: string, sep: char): (parts: seq<string>)
    ensures |parts| >= 1
    decreases |s|
  {
    if |s| == 0 then [""]
    else
      var rest := Split(s[1..], sep);
      if s[0] == sep then [""] + rest
      else [[s[0]] + rest[0]] + rest[1..]
  }

  /** `explode` yields one more piece than there are separators, and no
      piece holds a separator. */
  lemma {:induction false} SplitPieces(s: string, sep: char)
    ensures |Split(s, sep)| == multiset(s)[sep] + 1
    ensures forall i :: 0 <= i < |Split(s, sep)| ==> sep !in Split(s, sep)[i]
    decreases |s|
  {
    if |s| > 0 {
      SplitPieces(s[1..], sep);
      assert s == [s[0]] + s[1..];
      assert multiset(s) == multiset([s[0]]) + multiset(s[1..]);
      var rest := Split(s[1..], sep);
      if s[0] != sep {
        assert sep !in [s[0]] + rest[0];
      }
    }
  }

  /** PHP `implode($sep, $xs)`; the empty list joins to the empty string. */
  function Join(xs: seq<string>, sep: string): string
    decreases |xs|
  {
    if |xs| == 0 then ""
    else if |xs| == 1 then xs[0]
    else xs[0] + sep + Join(xs[1..], sep)
  }

  /** The join of two or more pieces opens with the first piece and a
      separator, and closes with the last two pieces around a separator. */
  lemma {:induction false} JoinFrame(xs: seq<string>, sep: string)
    requires |xs| >= 2
    ensures StartsWith(Join(xs, sep), xs[0] + sep)
    ensures EndsWith(Join(xs, sep), xs[|xs| - 2] + sep + xs[|xs| - 1])
    decreases |xs|
  {
    var j, rest := Join(xs, sep), Join(xs[1..], sep);
    var head := xs[0] + sep;
    assert j == head + rest;
    assert j[..|head|] == head;
    var tail := xs[|xs| - 2] + sep + xs[|xs| - 1];
    if |xs| == 2 {
      assert rest == xs[1];
    } else {
      JoinFrame(xs[1..], sep);
      assert rest[|rest| - |tail|..] == tail;
      assert j[|j| - |tail|..] == rest[|rest| - |tail|..];
    }
  }

  /** Prepending a character to the first piece prepends it to the join. */
  lemma JoinExtendHead(c: char, xs: seq<string>, sep: string)
    requires |xs| > 0
    ensures Join([[c] + xs[0]] + xs[1..], sep) == [c] + Join(xs, sep)
  {
    var ys := [[c] + xs[0]] + xs[1..];
    if |xs| > 1 {
      assert ys[1..] == xs[1..];
    }
  }

  /** Joining the pieces of `explode` with the same separator gives the
      original string back. */
  lemma {:induction false} JoinSplit(s: string, sep: char)
    ensures Join(Split(s, sep), [sep]) == s
    decreases |s|
  {
    if |s| > 0 {
      var rest := Split(s[1..], sep);
      JoinSplit(s[1..], sep);
      assert s == [s[0]] + s[1..];
      if s[0] == sep {
        assert ([""] + rest)[1..] == rest;
      } else {
        JoinExtendHead(s[0], rest, [sep]);
      }
    }
  }

  /** A string without the separator is one piece. */
  lemma {:induction false} SplitWithoutSeparator(s: string, sep: char)
    requires sep !in s
    ensures Split(s, sep) == [s]
    decreases |s|
  {
    if |s| > 0 {
      SplitWithoutSeparator(s[1..], sep);
      assert [s[0]] + s[1..] == s;
    }
  }

  /** Splitting right after a separator-free piece peels off that piece. */
  lemma {:induction false} SplitAfterPiece(a: string, sep: char, t: string)
    requires sep !in a
    ensures Split(a + [sep] + t, sep) == [a] + Split(t, sep)
    decreases |a|
  {
    var s := a + [sep] + t;
    if |a| == 0 {
      assert s[1..] == t;
    } else {
      assert s[1..] == a[1..] + [sep] + t;
      SplitAfterPiece(a[1..], sep, t);
      assert [a[0]] + a[1..] == a;
    }
  }

  /** `explode` undoes `implode` when no piece holds the separator. */
  lemma {:induction false} SplitJoin(xs: seq<string>, sep: char)
    requires |xs| > 0
    requires forall i :: 0 <= i < |xs| ==> sep !in xs[i]
    ensures Split(Join(xs, [sep]), sep) == xs
    decreases |xs|
  {
    if |xs| == 1 {
      SplitWithoutSeparator(xs[0], sep);
    } else {
      SplitJoin(xs[1..], sep);
      SplitAfterPiece(xs[0], sep, Join(xs[1..], [sep]));
      assert [xs[0]] + xs[1..] == xs;
    }
  }

  predicate StartsWith(s: string, p: string) {
    |p| <= |s| && s[..|p|] == p
  }

  predicate EndsWith(s: string, p: string) {
    |p| <= |s| && s[|s| - |p|..] == p
  }

  /** `Str::contains($s, $t)`: `t` occurs somewhere in `s`. */
  predicate Contains(s: string, t: string)
    decreases |s|
  {
    StartsWith(s, t) || (|s| > 0 && Contains(s[1..], t))
  }

  lemma {:induction false} ContainsExtendRight(s: string, t: string, u: string)
    requires Contains(s, t)
    ensures Contains(s + u, t)
    decreases |s|
  {
    if !StartsWith(s, t) {
      ContainsExtendRight(s[1..], t, u);
      assert (s + u)[1..] == s[1..] + u;
    }
  }

  lemma {:induction false} ContainsExtendLeft(u: string, s: string, t: string)
    requires Contains(s, t)
    ensures Contains(u + s, t)
    decreases |u|
  {
    if |u| > 0 {
      ContainsExtendLeft(u[1..], s, t);
      assert (u + s)[1..] == u[1..] + s;
    } else {
      assert u + s == s;
    }
  }

  lemma ContainsPrefix(s: string, t: string)
    requires StartsWith(s, t)
    ensures Contains(s, t)
  {
  }

  /** Every character of an occurring string is a character of the host. */
  lemma {:induction false} ContainsCharacters(s: string, t: string, k: nat)
    requires Contains(s, t)
    requires k < |t|
    ensures t[k] in s
    decreases |s|
  {
    if StartsWith(s, t) {
      assert s[k] == t[k];
    } else {
      ContainsCharacters(s[1..], t, k);
    }
  }

  /** A string cannot occur in a shorter one. */
  lemma {:induction false} ContainsNotLonger(s: string, t: string)
    requires Contains(s, t)
    ensures |t| <= |s|
    decreases |s|
  {
    if !StartsWith(s, t) {
      ContainsNotLonger(s[1..], t);
    }
  }

  /** `preg_replace` with a literal pattern: scans left to right and
      replaces every non-overlapping occurrence of `pat` by `rep`. */
  function ReplaceAll(s: string, pat: string, rep: string): string
    requires |pat| > 0
    decreases |s|
  {
    if |s| == 0 then ""
    else if StartsWith(s, pat) then rep + ReplaceAll(s[|pat|..], pat, rep)
    else [s[0]] + ReplaceAll(s[1..], pat, rep)
  }

  /** The number of occurrences `ReplaceAll` replaces. */
  function Occurrences(s: string, pat: string): nat
    requires |pat| > 0
    decreases |s|
  {
    if |s| == 0 then 0
    else if StartsWith(s, pat) then 1 + Occurrences(s[|pat|..], pat)
    else Occurrences(s[1..], pat)
  }

  /** Each replaced occurrence changes the length by `|rep| - |pat|` and
      nothing else changes the length. */
  lemma {:induction false} ReplaceAllLength(s: string, pat: string, rep: string)
    requires |pat| > 0
    ensures |ReplaceAll(s, pat, rep)| == |s| + Occurrences(s, pat) * (|rep| - |pat|)
    decreases |s|
  {
    if |s| > 0 {
      var d := |rep| - |pat|;
      if StartsWith(s, pat) {
        var tail := s[|pat|..];
        ReplaceAllLength(tail, pat, rep);
        ProductStep(Occurrences(tail, pat), d);
      } else {
        var tail := s[1..];
        ReplaceAllLength(tail, pat, rep);
        assert Occurrences(s, pat) == Occurrences(tail, pat);
      }
    }
  }

  lemma ProductStep(n: int, d: int)
    ensures (1 + n) * d == d + n * d
  {
  }

  /** The scan finds an occurrence exactly when the pattern occurs. */
  lemma {:induction false} OccurrencesPositive(s: string, pat: string)
    requires |pat| > 0
    ensures Occurrences(s, pat) > 0 <==> Contains(s, pat)
    decreases |s|
  {
    if |s| > 0 && !StartsWith(s, pat) {
      OccurrencesPositive(s[1..], pat);
    }
  }

  /** Without an occurrence the replacement leaves the string alone. */
  lemma {:induction false} ReplaceAllAbsent(s: string, pat: string, rep: string)
    requires |pat| > 0
    requires !Contains(s, pat)
    ensures ReplaceAll(s, pat, rep) == s
    decreases |s|
  {
    if |s| > 0 {
      ReplaceAllAbsent(s[1..], pat, rep);
      assert [s[0]] + s[1..] == s;
    }
  }

  /** With an occurrence the replacement text shows up in the result. */
  lemma {:induction false} ReplaceAllPresent(s: string, pat: string, rep: string)
    requires |pat| > 0
    requires Contains(s, pat)
    ensures Contains(ReplaceAll(s, pat, rep), rep)
    decreases |s|
  {
    if StartsWith(s, pat) {
      assert StartsWith(rep + ReplaceAll(s[|pat|..], pat, rep), rep);
    } else {
      ReplaceAllPresent(s[1..], pat, rep);
      ContainsExtendLeft([s[0]], ReplaceAll(s[1..], pat, rep), rep);
    }
  }

  /** A prefix `t` that cannot start a match (no character of `t` is the
      pattern's first character) is copied through unchanged. */
  lemma {:induction false} ReplaceAllKeepsPrefix(s: string, t: string, pat: string, rep: string)
    requires |pat| > 0
    requires StartsWith(s, t)
    requires pat[0] !in t
    ensures ReplaceAll(s, pat, rep) == t + ReplaceAll(s[|t|..], pat, rep)
    decreases |t|
  {
    if |t| > 0 {
      assert s[0] == t[0];
      assert !StartsWith(s, pat);
      assert StartsWith(s[1..], t[1..]);
      ReplaceAllKeepsPrefix(s[1..], t[1..], pat, rep);
      assert s[1..][|t[1..]|..] == s[|t|..];
      assert [t[0]] + t[1..] == t;
    }
  }

  /** An occurrence of `t` that no match can overlap — `t` does not start
      with a pattern character and holds no copy of the pattern's first
      character — can only begin after a match that starts before it. */
  lemma {:induction false} ContainsSkipsMatch(s: string, t: string, pat: string, i: nat)
    requires |pat| > 0 && |t| > 0
    requires StartsWith(s, pat)
    requires t[0] !in pat
    requires i <= |pat|
    requires Contains(s[i..], t)
    ensures Contains(s[|pat|..], t)
    decreases |pat| - i
  {
    if i < |pat| {
      var u := s[i..];
      assert u[0] == pat[i];
      assert u[1..] == s[i + 1..];
      ContainsSkipsMatch(s, t, pat, i + 1);
    }
  }

  /** Replacing the pattern keeps every occurrence of a string that no
      match can overlap. */
  lemma {:induction false} ReplaceAllKeepsContains(s: string, t: string, pat: string, rep: string)
    requires |pat| > 0 && |t| > 0
    requires pat[0] !in t
    requires t[0] !in pat
    requires Contains(s, t)
    ensures Contains(ReplaceAll(s, pat, rep), t)
    decreases |s|
  {
    if StartsWith(s, t) {
      ReplaceAllKeepsPrefix(s, t, pat, rep);
      ContainsExtendRight(t, t, ReplaceAll(s[|t|..], pat, rep));
    } else if StartsWith(s, pat) {
      ContainsSkipsMatch(s, t, pat, 0);
      ReplaceAllKeepsContains(s[|pat|..], t, pat, rep);
      ContainsExtendLeft(rep, ReplaceAll(s[|pat|..], pat, rep), t);
    } else {
      ReplaceAllKeepsContains(s[1..], t, pat, rep);
      ContainsExtendLeft([s[0]], ReplaceAll(s[1..], pat, rep), t);
    }
  }

  /** A prefix of the replaced text that holds no copy of the replacement's
      first character was copied from the input unchanged. */
  lemma {:induction false} ReplaceAllCopiesPrefix(s: string, pat: string, rep: string, t: string)
    requires |pat| > 0 && |rep| > 0
    requires rep[0] !in t
    requires StartsWith(ReplaceAll(s, pat, rep), t)
    ensures StartsWith(s, t)
    decreases |t|
  {
    if |t| > 0 {
      var r := ReplaceAll(s, pat, rep);
      assert r[0] == t[0];
      assert !StartsWith(s, pat);
      ReplaceAllCopiesPrefix(s[1..], pat, rep, t[1..]);
    }
  }

  /** Where the input does not start with the pattern, the replaced text
      starts with the replacement only if the input starts with it too. */
  lemma NoFreshMatch(s: string, pat: string, rep: string)
    requires |pat| > 0 && StartsWith(rep, pat) && rep[0] !in rep[1..]
    requires |s| > 0
    ensures StartsWith([s[0]] + ReplaceAll(s[1..], pat, rep), rep) ==> StartsWith(s, pat)
  {
    var r := [s[0]] + ReplaceAll(s[1..], pat, rep);
    if StartsWith(r, rep) {
      assert StartsWith(ReplaceAll(s[1..], pat, rep), rep[1..]);
      ReplaceAllCopiesPrefix(s[1..], pat, rep, rep[1..]);
      assert s[..|rep|] == rep;
      assert s[..|pat|] == rep[..|pat|];
    }
  }

  /** Replacing back undoes the replacement, when the replacement opens
      with the pattern and its first character does not recur in it. */
  lemma {:induction false} ReplaceAllUndo(s: string, pat: string, rep: string)
    requires |pat| > 0 && StartsWith(rep, pat) && rep[0] !in rep[1..]
    ensures ReplaceAll(ReplaceAll(s, pat, rep), rep, pat) == s
    decreases |s|
  {
    if |s| > 0 {
      if StartsWith(s, pat) {
        var rest := ReplaceAll(s[|pat|..], pat, rep);
        ReplaceAllUndo(s[|pat|..], pat, rep);
        assert (rep + rest)[..|rep|] == rep;
        assert (rep + rest)[|rep|..] == rest;
        assert s == pat + s[|pat|..];
      } else {
        var rest := ReplaceAll(s[1..], pat, rep);
        ReplaceAllUndo(s[1..], pat, rep);
        NoFreshMatch(s, pat, rep);
        assert ([s[0]] + rest)[1..] == rest;
        assert [s[0]] + s[1..] == s;
      }
    }
  }

  predicate IsDigit(c: char) {
    '0' <= c <= '9'
  }

  /** `preg_replace` reads a backslash or a dollar sign followed by a digit
      (or `${`) as a back-reference, and a backslash before a backslash or a
      dollar sign as an escape. A replacement without these pairs is inserted
      as written. */
  predicate IsLiteralReplacement(rep: string) {
    forall i :: 0 <= i < |rep| - 1 ==> !SpecialPair(rep[i], rep[i + 1])
  }

  predicate SpecialPair(a: char, b: char) {
    || (a == '\\' && (IsDigit(b) || b == '\\' || b == '$'))
    || (a == '$' && (IsDigit(b) || b == '{'))
  }

  /** Two literal replacements whose junction is not special join to a
      literal replacement. */
  lemma LiteralJoin(a: string, b: string)
    requires IsLiteralReplacement(a) && IsLiteralReplacement(b)
    requires |a| > 0 && |b| > 0 ==> !SpecialPair(a[|a| - 1], b[0])
    ensures IsLiteralReplacement(a + b)
  {
    var ab := a + b;
    forall i | 0 <= i < |ab| - 1
      ensures !SpecialPair(ab[i], ab[i + 1])
    {
      if i + 1 < |a| {
        assert ab[i] == a[i] && ab[i + 1] == a[i + 1];
      } else if i >= |a| {
        assert ab[i] == b[i - |a|] && ab[i + 1] == b[i - |a| + 1];
      }
    }
  }

  /** Text without backslashes and dollar signs is literal. */
  lemma PlainIsLiteral(a: string)
    requires '\\' !in a && '$' !in a
    ensures IsLiteralReplacement(a)
  {
    forall i | 0 <= i < |a| - 1
      ensures !SpecialPair(a[i], a[i + 1])
    {
      assert a[i] in a;
    }
  }
}

=== FILE: wrappers.dfy ===
/** The optional-value type the emitters use for "this token adds a clause
    or it does not". */
module Wrappers {

  datatype Option<+T> = None | Some(value: T)
}
